=== FILE: README.md ===
# mad-scientist: a Dafny model of the login service and the chat helpers

This project models the account-verification service of the
`flask-user-system/login_app` package in Dafny, and proves properties of
the model. That service is the `auth` and `user` blueprints, the `User` and
`VerificationToken` tables, and the WTForms validators. A new account moves
through these stages:

1. registration;
2. e-mail capture (`verify_post`), which mints the JWT access cookie;
3. the onboarding mail, which marks the account active;
4. a shortcode challenge (`authorize`, `authorize_post`) or an e-mailed link
   (`generate_auth_link`, `authorize_link`), which marks it verified.

It also models three smaller pieces of the repository:

- the keyword responder of `local_dev.py`;
- the model catalogue and `<option>` lists of `mad_scientist.py`;
- the routing and guard clauses of `src/worker_simple.py`.

Modules, one concept each:

- `Maybe`: `None`, exceptions as values.
- `Query`: `filter_by(...).first()` over a table held as a
  sequence in rowid order.
- `Text`: substring tests, `isspace`, ASCII case mapping, `str(n)`.
- `Forms`: the WTForms validators.
- `Sqlite`: how SQLite reads text compared with an integer key as a number.
- `Models`: the two tables, password hashing, token expiry and single use,
  and the schema dump.
- `ModelProperties`: token lemmas that span several calls.
- `Web`: the session, the JWT cookie, flask-login's current user, and the
  responses.
- `Auth`: the handlers of `auth.py`.
- `UserViews`: the views of `user.py`.
- `AuthFlow`: the request dispatcher and lemmas over sequences of requests.
- `LocalDev`, `MadScientist`, `WorkerSimple`: the three smaller pieces.

Each request handler is a pure function. It takes the database, one
browser's session and the request inputs, and returns a `Step`: the new
database, the new session, and the response. The clock, the random draw,
the password hasher, the mail transport's outcome and the
`current_user.sms` capability are all parameters.

An exception that escapes a handler becomes `ServerError(e)`. Anything
committed before the exception stays in the database. Session changes made
before it also stay, because Flask still saves the session on a 500
response.

The dispatcher also models Flask's URL router. Every `<username>` and
`<auth_link_route>` path variable uses the default converter, which
accepts one non-empty segment without `/`. A request whose variable does
not fit gets a 404 and changes nothing.

A verified account can still hold an outstanding shortcode.
`authorize_link` verifies the account and leaves any code on the row
(`AuthFlow.LinkLeavesCodeOutstanding`).

The limit of three wrong codes lives in the session cookie, not on the
account. `AuthFlow.WrongCodesExhaust` shows three misses in one session
clearing the code. `AuthFlow.FreshSessionResetsCounter` shows that a
client starting a fresh session after every two misses never loses it.

## Model

| member | source | states |
|---|---|---|
| Query.FirstMatch | flask-user-system/login_app/auth.py:38-42 | `.first()`: the index of the first row satisfying the filter, and none exactly when no row satisfies it |
| Text.LowerOfUpper | local_dev.py:118 | lower-casing an upper-cased string gives the lower-cased original, so case does not matter to the keyword match |
| Text.DigitsLength | flask-user-system/login_app/models.py:25 | a number with k decimal digits is stored as a string of exactly k characters |
| Text.ParseDigitsOfDigits | flask-user-system/login_app/auth.py:281 | reading back the stored decimal text gives the number that was stored |
| Text.DigitsInjective | flask-user-system/login_app/auth.py:281 | two codes are stored as equal text exactly when they are equal numbers |
| Forms.CredentialsValid | flask-user-system/login_app/forms.py:4-13 | username present, non-blank, 1..20 characters; password present, non-blank, 8..150 characters |
| Forms.VerifyFormValid | flask-user-system/login_app/forms.py:15-17 | the e-mail field is present, non-blank, and 5..60 characters |
| Forms.AuthFormValidate | flask-user-system/login_app/forms.py:19-21 | the form never validates: a missing, unparsable or zero number fails `DataRequired`, and any other number makes `Length` raise TypeError |
| Forms.CredentialsValidExactly | flask-user-system/login_app/forms.py:4-13 | submitted credentials pass exactly when both are non-blank, the username has 1..20 characters and the password 8..150 |
| Models.GeneratePasswordHash | flask-user-system/login_app/models.py:70-73 | a freshly generated hash keeps its salt and checks against the password it was made from |
| Models.SetPassword | flask-user-system/login_app/models.py:70-71 | afterwards the password checks, and no column other than the hash changed |
| Models.NewUser | flask-user-system/login_app/models.py:21-43 | a new row has the given id, name and password, no e-mail, code, route or token, all three flags false, and all three times equal to now |
| Models.FindByUsername | flask-user-system/login_app/auth.py:39 | the first row with that username, or none exactly when no row has it |
| Models.FindByEmail | flask-user-system/login_app/auth.py:76 | the first row holding that e-mail, or none exactly when no row holds it |
| Models.FindById | flask-user-system/login_app/user.py:75 | the row with that id, or none exactly when no row has it |
| Models.UpdateUser | flask-user-system/login_app/auth.py:31-32 | commit of one row: that row is replaced, every other row and the token table are unchanged |
| Models.UpdateUserKeepsValid | flask-user-system/login_app/models.py:36-39 | rewriting a row with its id and username kept, and with an e-mail that is unchanged, cleared or held by no other row, keeps both unique constraints |
| Models.IsExpiredAsWritten | flask-user-system/login_app/models.py:89-90 | `is_expired` raises AttributeError for every token at every time |
| Models.ExpiryBoundary | flask-user-system/login_app/models.py:89-90 | a token is unexpired at exactly one hour after creation and expired one second later, and once expired stays expired |
| Models.FirstUnusedMatch | flask-user-system/login_app/models.py:50 | the first unused token of that user with that value, or none exactly when there is none |
| Models.CheckVerificationTokenAsWritten | flask-user-system/login_app/models.py:49-53 | raises exactly when the user holds an unused token with that value; otherwise returns false |
| Models.CheckVerificationToken | flask-user-system/login_app/models.py:49-53 | with token values unique: true exactly when the user holds an unused, unexpired token with that value |
| Models.GenerateVerificationToken | flask-user-system/login_app/models.py:55-57 | fails with IntegrityError exactly when the value is already in the table; otherwise appends one unused token for the user created now, and nothing else changes |
| Models.GetActiveVerificationToken | flask-user-system/login_app/models.py:46-47 | none exactly when the user has no unused token; otherwise an unused token of the user whose creation time is the latest among them |
| Models.BackrefToken | flask-user-system/login_app/models.py:86 | the `uselist=False` backref is the user's first token in table order, or none when the user has none |
| Models.MarkUsed | flask-user-system/login_app/models.py:64-65 | exactly that token becomes used, and nothing else changes |
| Models.UseVerificationTokenAsWritten | flask-user-system/login_app/models.py:60-67 | raises exactly when the user holds an unused token with that value, because the check raises; otherwise returns false and changes nothing |
| Models.UseVerificationTokenExpiryFixed | flask-user-system/login_app/models.py:60-67 | with only the expiry test repaired: returns what the check returns; on success marks the backref token used, which is the user's first token and not necessarily the one checked |
| Models.UseVerificationTokenCorrected | flask-user-system/login_app/models.py:60-67 | returns what the check returns; on success marks a token that was redeemable for that value |
| Models.DumpUser | flask-user-system/login_app/models.py:95-100 | the dump keeps the id and the name, and carries a related token exactly when the user has one |
| Models.DumpExcludesSecrets | flask-user-system/login_app/models.py:100 | two rows dump alike exactly when they differ at most in the password hash and the e-mail |
| ModelProperties.GenerateKeepsEarlierTokens | flask-user-system/login_app/models.py:49-57 | adding a token leaves the answer of the check unchanged for every other value |
| ModelProperties.GenerateThenActive | flask-user-system/login_app/models.py:46-57 | a token created later than all the user's others is the active token |
| ModelProperties.CorrectedUseIsSingleUse | flask-user-system/login_app/models.py:60-67 | after a successful corrected use, the same value never succeeds again |
| ModelProperties.UseSingleTokenOnce | flask-user-system/login_app/models.py:60-67 | with only the expiry test repaired, use is single-use when the user holds only one token |
| ModelProperties.UseTokenReplay | flask-user-system/login_app/models.py:60-67 | with only the expiry test repaired, a user with two tokens can redeem the newer one twice |
| Web.CurrentUser | flask-user-system/login_app/__init__.py:67-69 | flask-login's user is the row with the stored id exactly when one has it, and is anonymous when no id is stored |
| Web.Failure | flask-user-system/login_app/user.py:75 | an abort from `get_or_404` answers 404; any other escaping exception answers 500 |
| Auth.GenerateShortcode | flask-user-system/login_app/auth.py:22-24 | the code is within 100000..999999 |
| Auth.GenerateShortcodeCovers | flask-user-system/login_app/auth.py:22-24 | every code in 100000..999999 is drawn by some value of the random source |
| Auth.StoredShortcode | flask-user-system/login_app/auth.py:29-32 | the stored code text has six decimal digits and reads back as the generated code; that number, submitted through AuthForm, would make its validation raise TypeError |
| Auth.GetUser | flask-user-system/login_app/auth.py:38-42 | the row with that username, or none exactly when no row has it |
| Auth.VerifyCurrentUser | flask-user-system/login_app/auth.py:27-35 | a missing user changes nothing; otherwise only that row's shortcode changes, to a fresh code |
| Auth.VerifyPost | flask-user-system/login_app/auth.py:66-111 | a valid POST of a well-formed address that no other row holds, for an existing account, goes to onboarding when the account is neither verified nor active, and to login otherwise; only the onboarding case writes the address, the token and the time and sets the cookie; an address held by another row goes back to the form; every other outcome changes nothing |
| Auth.Login | flask-user-system/login_app/auth.py:115-157 | a valid POST with the right password sets both times to now, logs the user in exactly when active, and sets the cookie exactly when `next` is empty or unsafe; the response is the authorize redirect, or UnboundLocalError for a usable `next`; anything else changes nothing, and an unknown username goes to register |
| Auth.LoginCorrected | flask-user-system/login_app/auth.py:115-157 | never a server error; a good login redirects to the safe `next` or to authorize; a bad one changes nothing |
| Auth.Register | flask-user-system/login_app/auth.py:160-188 | a valid POST with a free username appends exactly one new default row with the next id and goes to e-mail capture; a taken username changes nothing and goes back to the form |
| Auth.SendOnboardEmail | flask-user-system/login_app/auth.py:191-216 | without the cookie: 401 and no change; for an inactive account with an address, a delivered mail marks it active and goes to its index, a TypeError from the mailer changes nothing and also goes to the index, and any other mail failure changes nothing and is a server error; any other account goes back to e-mail capture; these are the only writes; a missing user raises |
| Auth.SendCodeAuth | flask-user-system/login_app/auth.py:219-266 | without the cookie: 401; a verified account goes to its index; an authenticated SMS-capable caller challenging an unverified row with an outstanding JWT gets the session marker and nothing else; otherwise an active row with an address and a link route has its JWT cleared and gets the link body once the mail was delivered; these are the only changes |
| Auth.AuthorizePost | flask-user-system/login_app/auth.py:269-308 | a matching code verifies the account, clears the code and the counter, and ends in BuildError; a mismatch counts up, and the third one clears the code and the counter; a missing field is 400; a GET changes nothing and redirects to the code page; a missing user raises |
| Auth.AuthorizePostCorrected | flask-user-system/login_app/auth.py:281-292 | a matching code verifies the account and redirects to its index page; never BuildError |
| Auth.Authorize | flask-user-system/login_app/auth.py:311-342 | never redirects to login; an authenticated, SMS-capable caller with no challenge marker gets a fresh code stored on an unverified row and goes to the code page, and that is the only write; otherwise routes to e-mail capture, to the code page, or to the index |
| Auth.LinkVisit | flask-user-system/login_app/auth.py:347-352 | a route equal to the stored one verifies the account; any other changes nothing; both redirect to authorize |
| Auth.AuthorizeLink | flask-user-system/login_app/auth.py:345-352 | for a one-segment route: verifies exactly when the route equals the stored one; a missing user raises |
| Auth.AuthorizeLinkCorrected | flask-user-system/login_app/auth.py:345-352 | for any non-empty route: verifies exactly when the route equals the stored one |
| Auth.Logout | flask-user-system/login_app/auth.py:355-361 | always redirects to login and leaves the database alone; a logged-in caller loses the login and the cookie, anyone else keeps the session |
| UserViews.AuthLink | flask-user-system/login_app/user.py:16-17 | the link is the fixed prefix followed by the username, and always contains '/' |
| UserViews.ShadowedGetUser | flask-user-system/login_app/user.py:70-78 | inside `user.py`, `get_user` is the view: a response for non-admins, and for an admin a dump when the text reads as a row id under SQLite's numeric reading, else a 404 |
| UserViews.GenerateAuthLinkAsWritten | flask-user-system/login_app/user.py:14-20 | never writes the database; raises exactly when the caller is a logged-in admin |
| UserViews.GenerateAuthLinkCorrected | flask-user-system/login_app/user.py:14-20 | stores the link as the named user's route and returns it; a missing user raises |
| UserViews.JwtUser | flask-user-system/login_app/user.py:27-28 | the row named by the JWT identity, found whenever some row has that name |
| UserViews.Index | flask-user-system/login_app/user.py:23-56 | never writes the database; a verified admin gets NameError; otherwise routes by the active and verified flags |
| UserViews.IndexCorrected | flask-user-system/login_app/user.py:23-56 | a verified admin goes to the admin site; an active unverified account gets its link route written to its own row; the only write is that one |
| UserViews.GetUsers | flask-user-system/login_app/user.py:59-67 | never returns the user list: an anonymous caller goes to login, and anyone else gets 404 or 500 |
| UserViews.DumpAll | flask-user-system/login_app/user.py:66-67 | one dump per row, in table order |
| UserViews.GetUsersCorrected | flask-user-system/login_app/user.py:59-67 | with only the shadowing repaired: the list of all dumps exactly when the caller is logged in and the row named in the path is an admin, whoever the caller is |
| UserViews.NonAdminListsThroughAdminPath | flask-user-system/login_app/user.py:62-67 | a logged-in caller who is not an admin, naming an admin in the path, gets every user's dump from the shadow-repaired view |
| UserViews.GetUsersAdminOnly | flask-user-system/login_app/user.py:59-67 | the list of all dumps exactly when the logged-in caller is an admin; anyone else logged in goes to the named user's index page |
| UserViews.AdminOnlyAgreesOnOwnPath | flask-user-system/login_app/user.py:62-64 | with unique usernames, a caller naming themselves in the path gets the same answer from the caller gate and the path gate |
| UserViews.PointZeroNamesFirstRow | flask-user-system/login_app/user.py:70-78 | an admin asking the view for the text "1.0" gets row 1's dump, since the key comparison reads the text as a number |
| Sqlite.IntegerValue | flask-user-system/login_app/models.py:21 | text compared with the integer key has an integer value only when it reads as a number, and that value times the power of ten is the number read |
| Sqlite.IntegerValueOfDigits | flask-user-system/login_app/models.py:21 | plain decimal text reads as the number it spells |
| Sqlite.PointZeroReadsAsInteger | flask-user-system/login_app/models.py:21 | "1.0" compares equal to the key 1 |
| Sqlite.ExponentReadsAsInteger | flask-user-system/login_app/models.py:21 | "1e0" compares equal to the key 1 |
| Sqlite.SignAndSpaceReadAsInteger | flask-user-system/login_app/models.py:21 | " +1 " compares equal to the key 1 |
| Sqlite.FractionReadsAsNoInteger | flask-user-system/login_app/models.py:21 | "1.5" matches no integer key |
| UserViews.GetUserById | flask-user-system/login_app/user.py:70-78 | a user's dump exactly when the caller is an admin and the id exists; a non-admin goes to their own index page |
| AuthFlow.AppendUserKeepsValid | flask-user-system/login_app/auth.py:176-178 | appending a row with the next id, a fresh name and no e-mail keeps the constraints |
| AuthFlow.HandleKeepsValid | flask-user-system/login_app/models.py:36-39 | every request keeps unique usernames, unique e-mails, unique token values and ids in insertion order, deletes no row and changes no existing row's id or username |
| AuthFlow.HandleCorrectedKeepsValid | flask-user-system/login_app/models.py:36-39 | the same holds with the corrected handlers |
| AuthFlow.RowSurvives | flask-user-system/login_app/auth.py:176-178 | an existing row outlives every request, and registration leaves it as it was |
| AuthFlow.GuardedActive | flask-user-system/login_app/auth.py:208-210 | `is_active` turns true only when the onboarding mail was delivered |
| AuthFlow.GuardedVerified | flask-user-system/login_app/auth.py:281-284 | `is_verified` turns true only on a submitted code equal to the stored one, or on a link visit whose route equals the stored route |
| AuthFlow.GuardedEmail | flask-user-system/login_app/auth.py:82-99 | the e-mail changes only through e-mail capture, and only to an address of 6..60 characters holding '@' and '.' |
| AuthFlow.GuardedShortcode | flask-user-system/login_app/auth.py:27-35 | a code is stored only by the stage router, and always as six digits |
| AuthFlow.HandleKeepsAttemptsBounded | flask-user-system/login_app/auth.py:294-305 | within one session, the wrong-code counter never reaches 3 |
| AuthFlow.SameUsernamesSameLookup | flask-user-system/login_app/auth.py:38-42 | the lookup by name gives the same row when every row keeps its username |
| AuthFlow.ClearedCodeCannotVerify | flask-user-system/login_app/auth.py:281-284 | once the code is cleared, no run of submissions changes the row |
| AuthFlow.WrongCodesExhaust | flask-user-system/login_app/auth.py:293-306 | the wrong submissions left in the session clear the stored code and the counter, and never verify the account |
| AuthFlow.WrongCodesBelowLimit | flask-user-system/login_app/auth.py:293-306 | fewer wrong codes than the session has left change nothing in the database |
| AuthFlow.FreshSessionResetsCounter | flask-user-system/login_app/auth.py:274-306 | runs of at most two wrong codes, each from a fresh session, never clear the stored code, however many runs there are |
| AuthFlow.RightCodeWorksOnce | flask-user-system/login_app/auth.py:281-294 | the right code verifies the account and clears it; sending it again counts as a wrong submission |
| AuthFlow.RegisterTwice | flask-user-system/login_app/auth.py:170-178 | a second registration of the same name is refused, and exactly one row carries that name |
| AuthFlow.LogoutKeepsChallenge | flask-user-system/login_app/auth.py:355-361 | logout ends the login but keeps the session's challenge marker and counter |
| AuthFlow.GeneratedLinkNeverRouted | flask-user-system/login_app/auth.py:345 | the generated link spans two path segments, so no route matches it: 404, and nothing changes |
| AuthFlow.StoredLinkNeverMatches | flask-user-system/login_app/auth.py:345-351 | against a row that holds the generated route, no routable visit verifies the account |
| AuthFlow.SlashedNameStranded | flask-user-system/login_app/auth.py:160-180 | a username holding '/' is registered and sent to e-mail capture, but every request naming it in the path gets a 404 and changes nothing |
| AuthFlow.CorrectedLinkVerifies | flask-user-system/login_app/user.py:50-54 | with the corrections, the index page stores the link and visiting it verifies the account |
| AuthFlow.LinkLeavesCodeOutstanding | flask-user-system/login_app/auth.py:349-351 | the link verifies the account and leaves any outstanding code in place |
| AuthFlow.StoredShortcodeExample | flask-user-system/login_app/auth.py:22-32 | the draw 382913 is stored as the text "482913" |
| AuthFlow.AliceGetsCode | flask-user-system/login_app/auth.py:321-325 | a signed-in active user with an address is given code 482913 and sent to the code page |
| AuthFlow.AliceSubmits | flask-user-system/login_app/auth.py:269-306 | two typos count up to 2 without a write; the right code then verifies her and ends in BuildError |
| LocalDev.Choose | local_dev.py:109-124 | the first keyword, in table order, that the lower-cased message contains; the default exactly when none does |
| LocalDev.SelectKeyword | local_dev.py:117-121 | the keyword loop stops at that same first match, or falls through to the default |
| LocalDev.ChatEndpoint | local_dev.py:104-129 | the reply is the text of that choice and always reports model "mock-mad-scientist-v1.0" |
| LocalDev.ChooseIgnoresCase | local_dev.py:118 | a message and its upper-cased form get the same reply |
| LocalDev.ExplainChoosesAi | local_dev.py:109-124 | "explain" contains "ai" and so gets the AI reply |
| LocalDev.HealthCheck | local_dev.py:131-139 | the report names the local chat service as healthy, in development mode, with mock responses |
| MadScientist.OptionTag | mad_scientist.py:51 | the element is `<option value='M'>M</option>` for display name M: the name twice, inside the fixed markup |
| MadScientist.OptionTagInjective | mad_scientist.py:51 | two option elements are equal exactly when their display names are |
| MadScientist.WithUsage | mad_scientist.py:52-55 | only entries of that usage, and every entry of that usage |
| MadScientist.TagsAppend | mad_scientist.py:50-55 | the options of two lists joined are the two option strings joined |
| MadScientist.WithUsageAppend | mad_scientist.py:50-55 | appending an entry extends the filtered list by that entry exactly when it has that usage |
| MadScientist.OptionsForIsFilter | mad_scientist.py:48-55 | the left-to-right scan equals the options of the filtered entries in table order |
| MadScientist.BuildOptions | mad_scientist.py:48-55 | the brain list holds exactly the 'mad-sci-text' entries and the art list exactly the 'art' entries, in table order |
| MadScientist.CatalogueOptions | mad_scientist.py:15-55 | for the catalogue `get_models` serves: one brain option, one art option, and the 'text' entries in neither |
| MadScientist.GetModels | mad_scientist.py:131-132 | all four entries, in table order |
| MadScientist.GetModelByName | mad_scientist.py:134-138 | an entry with that name exactly when one exists, else the "Model Not Found" record echoing the name |
| MadScientist.GetMidByModelName | mad_scientist.py:140-143 | none exactly when no entry has that name, else the `mid` of such an entry |
| MadScientist.GetModelNameByModel | mad_scientist.py:145-148 | none exactly when no entry has that display name, else the name of such an entry |
| MadScientist.CatalogueUnique | mad_scientist.py:15-44 | display names and names are unique in the catalogue `get_models` serves |
| MadScientist.MidOfModelRoundTrip | mad_scientist.py:140-148 | from an entry's display name, through its name, back to its own `mid` |
| MadScientist.SetSession | mad_scientist.py:116-120 | AssertionError exactly when the session middleware is missing, never the HTTP 500; otherwise the key holds the value and every other key is kept |
| MadScientist.GetSession | mad_scientist.py:122-125 | AssertionError exactly when the session middleware is missing; otherwise a value exactly when the key exists, and it is the stored one |
| MadScientist.ClearSession | mad_scientist.py:127-129 | AssertionError exactly when the session middleware is missing; otherwise the session becomes empty |
| MadScientist.GetAfterSet | mad_scientist.py:116-125 | reading back gives the last value set, and other keys read as before |
| MadScientist.GetAfterClear | mad_scientist.py:122-129 | after clearing, no key is found |
| WorkerSimple.HandleChat | src/worker_simple.py:22-56 | an object body without a truthy message gets 400 "Message required"; a truthy message with a bound AI whose answer has a "response" gets exactly that response, naming "@cf/meta/llama-3-8b-instruct", and no other input gets a reply; every other failure is 500 |
| WorkerSimple.EmptyMessageIgnoresBinding | src/worker_simple.py:27-36 | for an empty or missing message the reply does not depend on the AI binding |
| WorkerSimple.MissingBindingIs500 | src/worker_simple.py:33-56 | with a usable message, a falsy binding gets 500 "AI binding not available", a missing one gets 500 "Chat error: …", and only a present binding can produce a reply |
| WorkerSimple.OnFetch | src/worker_simple.py:1-19 | health exactly when the URL ends in "/health"; the chat handler exactly for a non-health POST whose URL contains "/chat"; the page otherwise |
| WorkerSimple.HealthBeforeChat | src/worker_simple.py:8-16 | a POST to ".../chat/health" is answered as a health probe |
| WorkerSimple.ChatRouteBySubstring | src/worker_simple.py:15 | a GET to "/chat" gets the page, and a POST to "/chatter" reaches the chat handler |

## Left out

- Templates, flash messages and the `remember` box carry no state the verification flow reads. They are not modelled.
- Every POST is taken to carry a valid CSRF token. `CSRFProtect` is installed for the whole app (`flask-user-system/login_app/__init__.py` lines 18 and 60). Without a valid token it answers 400 before the view runs, and nothing changes.
- JWT signing, the cookie mechanics and `create_access_token` are not modelled. A cookie is the identity and the issue time, and it is valid for one hour. The minted token text is an input.
- `is_safe_url` is not modelled. Whether `next` is safe is a boolean input.
- The mail transport is left out. Its outcome (delivered, TypeError, another error) is an input.
- The message text that `send_code_auth` builds and never sends is not modelled.
- Randomness is left out. `random.randint` is an input draw, and `secrets.token_urlsafe` is an input value.
- werkzeug hashing is an abstract function of the salt and the password.
- The `verify` GET view, `config.py` and the application factory are not modelled.
- `register`'s exception branch is not modelled. Its handler names `current_app`, which `auth.py` does not import. With one request at a time, that branch is not reached.
- `verify_post`'s IntegrityError branch is not modelled. The uniqueness check just before the commit rules out a clash when requests run one at a time.
- `authorize_post` never runs the AuthForm validators, so `Forms.AuthFormValidate` is not part of any handler. The field's integer parsing is not modelled: the validators take the parsed number, or none.
- `Models.GenerateVerificationToken`: the source only adds the row to the SQLAlchemy session, without a flush or a commit. The model treats the pending add as committed, and raises the IntegrityError at the call. In the source that error would surface at the next flush or commit, in other code. Nothing in the modelled handlers calls it.
- `AuthFlow.Handle`: a username holding '/' can make a request match another route of the same blueprint, such as "get/5" under `/user/<username>`. The model answers every such request with 404. Usernames equal to a fixed path segment (for example "verify"), which a more specific route shadows, are not modelled either.
- Concurrent requests, and the database transactions they would interleave, are left out.
- `Text.Lower`: only ASCII letters are case-mapped. Python's `str.lower` maps all of Unicode, so a non-ASCII message can differ in ways the model does not show.
- `WorkerSimple.Json`: numbers are integers, so a falsy float message (`0.0`) is not modelled.
- `WorkerSimple.HandleChat`: the text of `str(e)` for internal faults is a parameter, not spelled out.
- The model takes `Response` in `src/worker_simple.py` as supplied by the Workers runtime. The file does not import it.
- `serve_html`'s page and the page of `local_dev.py`'s root view are not modelled. Neither holds logic.
- `mad_scientist.py`'s `chat`, `finetuned_chat` and `get_avatar_data_url` are not modelled. They are HTTP calls and image encoding.
- `Models.GetActiveVerificationToken`: among tokens with the same latest creation time, the model picks the last inserted. The query's order among ties is unspecified.
- `Models.Valid`: SQLite type affinity is not modelled beyond storing the shortcode as its decimal text, and reading text compared with the integer key as a number.
- `UserViews.ShadowedGetUser`: SQLite reads numeric text through a double, so a literal with more significant digits than a double holds (such as "1.0000000000000000001") rounds to an integer key there, while the model reads it exactly and finds no row.

## Findings

| source | as written | input that shows it | evidently intended | confidence | as-written member | corrected member |
|---|---|---|---|---|---|---|
| flask-user-system/login_app/auth.py:134-139 | `resp` is only assigned when `next` is empty or unsafe, then returned on every path | a valid login with a safe `next=/home`: the login is committed, then UnboundLocalError (500) | redirect to the safe `next` page with the access cookie set | not executed; high | Auth.Login | Auth.LoginCorrected |
| flask-user-system/login_app/models.py:89-90 | `datetime.datetime.now()`, where line 3 imported the class `datetime` | any unused matching token: `check_verification_token` raises AttributeError | compare the clock with creation time plus one hour | not executed; high | Models.CheckVerificationTokenAsWritten | Models.CheckVerificationToken |
| flask-user-system/login_app/models.py:60-67 | on success marks `self.verification_token`, the user's first token. This is latent: as written, every call with an unused match raises through the expiry test of lines 89-90 first (`Models.UseVerificationTokenAsWritten`) | once the expiry test is repaired, tokens "older" then "newer" for one user: redeeming "newer" succeeds twice (`ModelProperties.UseTokenReplay`) | mark the token that was checked, so each token works once (`ModelProperties.CorrectedUseIsSingleUse`) | not executed; medium | Models.UseVerificationTokenExpiryFixed | Models.UseVerificationTokenCorrected |
| flask-user-system/login_app/user.py:14-20 | `get_user` in `user.py` is the view defined at line 72, not the lookup imported at line 6 | an active unverified user at `/user/<name>`: the route is never written | store the link route on the user's row | not executed; high | UserViews.GenerateAuthLinkAsWritten | UserViews.GenerateAuthLinkCorrected |
| flask-user-system/login_app/user.py:59-67 | `get_users` reads `.is_admin` from the view's result | an admin requesting `/user/<name>/get/users`: 500 or 404, never the list | read `is_admin` from the named user's row | not executed; high | UserViews.GetUsers | UserViews.GetUsersCorrected |
| flask-user-system/login_app/user.py:62-63 | even with the lookup repaired, the admin test reads the row named in the path, not the caller | a logged-in non-admin requesting `/user/root/get/users` where "root" is an admin gets every user's dump (`UserViews.NonAdminListsThroughAdminPath`) | list every user only for an admin caller | not executed; medium | UserViews.GetUsersCorrected | UserViews.GetUsersAdminOnly |
| flask-user-system/login_app/user.py:36-47 | the admin branch reads `app.config`; `app` is not defined in `user.py` | a verified admin at `/user/<name>`: NameError (500) | redirect the admin to the admin site | not executed; high | UserViews.Index | UserViews.IndexCorrected |
| flask-user-system/login_app/auth.py:291 | redirect to `auth.send_auth_onboard_email`, an endpoint the blueprint does not define | the right code: the account is verified and committed, then BuildError (500) (`AuthFlow.AliceSubmits`) | redirect to the user's index page, as the commented-out line 292 does | not executed; high | Auth.AuthorizePost | Auth.AuthorizePostCorrected |
| flask-user-system/login_app/auth.py:345-352 | the link from `user.py` lines 16-17 is `-random-insults/<name>`, and the route variable uses the default one-segment converter | visiting `/<name>/-random-insults/<name>`: no route matches (`AuthFlow.GeneratedLinkNeverRouted`) | a route that accepts the stored link, so the visit verifies the account (`AuthFlow.CorrectedLinkVerifies`) | not executed; medium | Auth.AuthorizeLink | Auth.AuthorizeLinkCorrected |

`AuthFlow.Handle` dispatches each request to the handlers as written.
`AuthFlow.HandleCorrected` dispatches to the corrected ones. The
invariants are proved for both.

=== FILE: auth.dfy ===
/** The request handlers of `auth.py`, each a function from the database,
    the caller's session and the request to the next database, session
    and response. Collaborators the handlers call are parameters: the
    clock (`now`, seconds), the random draws, the JWT the library mints,
    the password hasher, the outcome of `mail.send`, the `is_safe_url`
    verdict, and whether `current_user` has an `sms` attribute. */
module Auth {
  import opened Maybe
  import Text
  import Forms
  import opened Models
  import opened Web

  const ShortcodeLow: int := 100000
  const ShortcodeHigh: int := 999999

  /** Wrong submissions allowed per session before the code is cleared. */
  const MaxAttempts: int := 3

  /** `generate_shortcode`: `random.randint(100000, 999999)`, the draw
      being whatever the random source produced. */
  function GenerateShortcode(draw: nat): (code: int)
    ensures ShortcodeLow <= code <= ShortcodeHigh
  {
    ShortcodeLow + draw % (ShortcodeHigh - ShortcodeLow + 1)
  }

  /** Every code in range is produced by some draw. */
  lemma GenerateShortcodeCovers(code: int)
    requires ShortcodeLow <= code <= ShortcodeHigh
    ensures GenerateShortcode(code - ShortcodeLow) == code
  {
  }

  /** The text the `String(6)` shortcode column holds after the generated
      integer is committed: six decimal digits that read back as the code.
      Submitted through `AuthForm`, that number would make the form's
      `Length` validator raise TypeError. */
  function StoredShortcode(draw: nat): (s: string)
    ensures |s| == 6 && Text.IsDigits(s)
    ensures Text.ParseDigits(s) == GenerateShortcode(draw)
    ensures Forms.AuthFormValidate(Some(Text.ParseDigits(s))) == Raised(TypeError)
  {
    var code := GenerateShortcode(draw);
    assert Text.Pow10(5) == 100000 && Text.Pow10(6) == 1000000;
    Text.DigitsLength(code, 6);
    Text.ParseDigitsOfDigits(code);
    Text.Digits(code)
  }

  /** `get_user`: the row with that username, if any. */
  function GetUser(db: Db, username: string): (r: Option<nat>)
    ensures r.Some? ==> r.value < |db.users| && db.users[r.value].username == username
    ensures r.None? <==> forall j :: 0 <= j < |db.users| ==> db.users[j].username != username
  {
    FindByUsername(db.users, username)
  }

  /** `verify_current_user`: store a fresh code on the user's row. For an
      unknown username the attribute write on `False` raises, the handler
      swallows it, and nothing changes. */
  function VerifyCurrentUser(db: Db, username: string, draw: nat): (db': Db)
    ensures GetUser(db, username).None? ==> db' == db
    ensures GetUser(db, username).Some? ==>
              var i := GetUser(db, username).value;
              && |db'.users| == |db.users| && db'.tokens == db.tokens
              && db'.users[i] == db.users[i].(shortcode := db'.users[i].shortcode)
              && db'.users[i].shortcode == Some(StoredShortcode(draw))
              && forall j :: 0 <= j < |db.users| && j != i ==> db'.users[j] == db.users[j]
  {
    match GetUser(db, username)
    case None => db
    case Some(i) => UpdateUser(db, i, db.users[i].(shortcode := Some(StoredShortcode(draw))))
  }

  /** The format test `verify_post` applies after the uniqueness test. */
  predicate PlausibleEmail(e: string) {
    |e| >= 6 && '@' in e && '.' in e
  }

  /** Some row other than the one with id `id` already holds `e`. */
  predicate EmailHeldByOther(db: Db, e: string, id: nat) {
    exists j :: 0 <= j < |db.users| && db.users[j].email == Some(e) && db.users[j].id != id
  }

  /** A valid, well-formed address for an existing row that no other row
      holds: `verify_post` gets past its address checks. */
  predicate Capturable(db: Db, username: string, email: Option<string>) {
    && Forms.VerifyFormValid(email) && PlausibleEmail(email.value) && GetUser(db, username).Some?
    && !EmailHeldByOther(db, email.value, db.users[GetUser(db, username).value].id)
  }

  /** `verify_post` (POST /verify/<username>): capture the e-mail address,
      mint the access token, set the cookie, go on to onboarding. */
  function VerifyPost(db: Db, s: Session, username: string, isPost: bool, email: Option<string>,
                      accessToken: string, now: int): (st: Step)
    requires Valid(db)
    ensures st.outcome != Redirect(OnboardView(username)) ==> st.db == db && st.session == s
    ensures st.outcome == Redirect(OnboardView(username)) ==>
              && isPost && email.Some? && 6 <= |email.value| <= 60 && PlausibleEmail(email.value)
              && GetUser(db, username).Some?
              && var i := GetUser(db, username).value;
                 && !db.users[i].isVerified && !db.users[i].isActive
                 && !EmailHeldByOther(db, email.value, db.users[i].id)
                 && st.db == UpdateUser(db, i, db.users[i].(email := email, token := Some(accessToken),
                                                            currentAuthTime := now))
                 && st.session == s.(bearer := Some(Bearer(username, now)))
    ensures isPost && Forms.VerifyFormValid(email) && GetUser(db, username).Some?
            && EmailHeldByOther(db, email.value, db.users[GetUser(db, username).value].id) ==>
              st.outcome == Redirect(VerifyView(username))
    ensures isPost && Forms.VerifyFormValid(email) && GetUser(db, username).None? ==>
              st.outcome.ServerError? || st.outcome == Redirect(VerifyView(username))
    ensures isPost && Capturable(db, username, email) ==>
              var u := db.users[GetUser(db, username).value];
              st.outcome == Redirect(if u.isVerified || u.isActive then LoginView else OnboardView(username))
  {
    if !isPost || !Forms.VerifyFormValid(email) then Step(db, s, Render(VerifyPage(username)))
    else
      var e := email.value;
      var me := GetUser(db, username);
      var holder := FindByEmail(db.users, e);
      if holder.Some? && me.None? then Step(db, s, ServerError(AttributeError))  // `False.id`
      else if holder.Some? && db.users[holder.value].id != db.users[me.value].id then
        Step(db, s, Redirect(VerifyView(username)))
      else if !PlausibleEmail(e) then Step(db, s, Redirect(VerifyView(username)))
      else if me.None? then Step(db, s, ServerError(AttributeError))             // `False.is_verified`
      else
        var u := db.users[me.value];
        if u.isVerified || u.isActive then Step(db, s, Redirect(LoginView))
        else
          // The commit cannot break the unique e-mail constraint here, so
          // its IntegrityError branch is not reachable one request at a time.
          Step(UpdateUser(db, me.value, u.(email := Some(e), token := Some(accessToken), currentAuthTime := now)),
               s.(bearer := Some(Bearer(username, now))),
               Redirect(OnboardView(username)))
  }

  /** The empty or unsafe `next` test of `login`. */
  predicate UseDefaultNext(next: Option<string>, nextIsSafe: bool) {
    next.None? || next.value == "" || !nextIsSafe
  }

  /** A valid login form naming a row whose password hash matches. */
  predicate Authenticates(db: Db, isPost: bool, username: Option<string>, password: Option<string>,
                          hasher: Hasher) {
    && isPost && Forms.LoginFormValid(username, password)
    && GetUser(db, username.value).Some?
    && CheckPassword(hasher, db.users[GetUser(db, username.value).value], password.value)
  }

  /** `login` (POST /login). flask-login's `login_user` refuses an inactive
      user, so only an active one gets the session login. With a usable
      `next` the handler returns `resp`, which is only bound in the other
      branch: the request fails after the commit. */
  function Login(db: Db, s: Session, isPost: bool, username: Option<string>, password: Option<string>,
                 next: Option<string>, nextIsSafe: bool, hasher: Hasher, now: int): (st: Step)
    ensures st.db != db || st.session != s ==> Authenticates(db, isPost, username, password, hasher)
    ensures st.db != db ==>
              var i := GetUser(db, username.value).value;
              st.db == UpdateUser(db, i, db.users[i].(lastLogin := now, currentAuthTime := now))
    ensures st.session.loginId != s.loginId ==>
              var u := db.users[GetUser(db, username.value).value];
              u.isActive && st.session.loginId == Some(u.id)
    ensures st.session.bearer != s.bearer ==>
              st.session.bearer == Some(Bearer(username.value, now))
              && st.outcome == Redirect(AuthorizeView(username.value))
    ensures st.session.attempts == s.attempts && st.session.shortcodeFlag == s.shortcodeFlag
    ensures isPost && Forms.LoginFormValid(username, password) && GetUser(db, username.value).None? ==>
              st.outcome == Redirect(RegisterView)
    ensures Authenticates(db, isPost, username, password, hasher) ==>
              if UseDefaultNext(next, nextIsSafe) then st.outcome == Redirect(AuthorizeView(username.value))
              else st.outcome == ServerError(UnboundLocalError)
    ensures !Authenticates(db, isPost, username, password, hasher) ==>
              st.db == db && st.session == s && !st.outcome.ServerError?
    ensures Authenticates(db, isPost, username, password, hasher) ==>
              var i := GetUser(db, username.value).value;
              var u := db.users[i];
              && st.db == UpdateUser(db, i, u.(lastLogin := now, currentAuthTime := now))
              && st.session.loginId == (if u.isActive then Some(u.id) else s.loginId)
              && st.session.bearer == (if UseDefaultNext(next, nextIsSafe) then Some(Bearer(username.value, now))
                                       else s.bearer)
  {
    if !isPost || !Forms.LoginFormValid(username, password) then Step(db, s, Render(LoginPage))
    else
      var name := username.value;
      match GetUser(db, name)
      case None => Step(db, s, Redirect(RegisterView))
      case Some(i) =>
        var u := db.users[i];
        if !CheckPassword(hasher, u, password.value) then Step(db, s, Redirect(LoginView))
        else
          var s1 := if u.isActive then s.(loginId := Some(u.id)) else s;
          var db1 := UpdateUser(db, i, u.(lastLogin := now, currentAuthTime := now));
          if UseDefaultNext(next, nextIsSafe) then
            Step(db1, s1.(bearer := Some(Bearer(name, now))), Redirect(AuthorizeView(name)))
          else
            Step(db1, s1, ServerError(UnboundLocalError))
  }

  /** `login` with `resp` bound on both branches: a usable `next` gets the
      cookie and the redirect too. */
  function LoginCorrected(db: Db, s: Session, isPost: bool, username: Option<string>, password: Option<string>,
                          next: Option<string>, nextIsSafe: bool, hasher: Hasher, now: int): (st: Step)
    ensures !st.outcome.ServerError?
    ensures Authenticates(db, isPost, username, password, hasher) ==>
              && st.session.bearer == Some(Bearer(username.value, now))
              && st.outcome == Redirect(if UseDefaultNext(next, nextIsSafe) then AuthorizeView(username.value)
                                        else NextPage(next.value))
    ensures !Authenticates(db, isPost, username, password, hasher) ==> st.db == db && st.session == s
  {
    var st := Login(db, s, isPost, username, password, next, nextIsSafe, hasher, now);
    if st.outcome == ServerError(UnboundLocalError) then
      Step(st.db, st.session.(bearer := Some(Bearer(username.value, now))), Redirect(NextPage(next.value)))
    else st
  }

  /** `register` (POST /register): a free username gets a new row, with the
      next row id and the column defaults; a taken one changes nothing. */
  function Register(db: Db, s: Session, isPost: bool, username: Option<string>, password: Option<string>,
                    hasher: Hasher, salt: string, now: int): (st: Step)
    ensures st.session == s && st.db.tokens == db.tokens
    ensures st.db != db ==>
              && isPost && Forms.RegisterFormValid(username, password)
              && GetUser(db, username.value).None?
              && |st.db.users| == |db.users| + 1 && st.db.users[..|db.users|] == db.users
              && st.db.users[|db.users|] == NewUser(|db.users| + 1, username.value, password.value, hasher, salt, now)
              && st.outcome == Redirect(VerifyView(username.value))
    ensures isPost && Forms.RegisterFormValid(username, password) ==>
              if GetUser(db, username.value).Some? then st.db == db && st.outcome == Redirect(RegisterView)
              else st.db != db
  {
    if !isPost || !Forms.RegisterFormValid(username, password) then Step(db, s, Render(RegisterPage))
    else
      var name := username.value;
      if GetUser(db, name).Some? then Step(db, s, Redirect(RegisterView))
      else
        var row := NewUser(|db.users| + 1, name, password.value, hasher, salt, now);
        assert |(db.users + [row])| != |db.users|;
        Step(db.(users := db.users + [row]), s, Redirect(VerifyView(name)))
  }

  /** `send_onboard_email` (GET /send-onboard-email/<username>): mail the
      greeting to a captured address, then mark the account active. */
  function SendOnboardEmail(db: Db, s: Session, username: string, mail: Mail, now: int): (st: Step)
    ensures st.session == s
    ensures !JwtValid(s, now) ==> st.db == db && st.outcome == Unauthorized
    ensures st.db != db ==>
              && JwtValid(s, now) && mail == Delivered && GetUser(db, username).Some?
              && var i := GetUser(db, username).value;
                 && !db.users[i].isActive && db.users[i].email.Some?
                 && st.db == UpdateUser(db, i, db.users[i].(isActive := true))
                 && st.outcome == Redirect(IndexView(username))
    ensures JwtValid(s, now) && GetUser(db, username).None? ==> st.outcome == ServerError(AttributeError)
    ensures JwtValid(s, now) && GetUser(db, username).Some? ==>
              var i := GetUser(db, username).value;
              var u := db.users[i];
              if !u.isActive && u.email.Some? then
                && (mail == Delivered ==>
                      st.db == UpdateUser(db, i, u.(isActive := true)) && st.outcome == Redirect(IndexView(username)))
                && (mail == RaisedTypeError ==> st.db == db && st.outcome == Redirect(IndexView(username)))
                && (mail == RaisedOther ==> st.db == db && st.outcome == ServerError(MailError))
              else st.db == db && st.outcome == Redirect(VerifyView(username))
  {
    if !JwtValid(s, now) then Step(db, s, Unauthorized)
    else match GetUser(db, username)
      case None => Step(db, s, ServerError(AttributeError))   // `False.is_active`
      case Some(i) =>
        var u := db.users[i];
        if !u.isActive && u.email.Some? then
          match mail
          case Delivered => Step(UpdateUser(db, i, u.(isActive := true)), s, Redirect(IndexView(username)))
          case RaisedTypeError => Step(db, s, Redirect(IndexView(username)))
          case RaisedOther => Step(db, s, ServerError(MailError))
        else Step(db, s, Redirect(VerifyView(username)))
  }

  /** `send_code_auth` takes the SMS branch: an unverified row with an
      outstanding JWT, and a logged-in caller with SMS capability whose
      session carries no challenge marker yet. */
  predicate SmsChallenge(db: Db, s: Session, username: string, hasSms: bool)
    requires GetUser(db, username).Some?
  {
    var u := db.users[GetUser(db, username).value];
    !u.isVerified && u.token.Some? && LoggedIn(db, s) && hasSms && s.shortcodeFlag.None?
  }

  /** An unverified, active row with an outstanding JWT, a captured address
      and a link route: the one `send_code_auth` mails the link to. */
  predicate LinkMailable(u: User) {
    !u.isVerified && u.token.Some? && u.email.Some? && u.authLinkRoute.Some? && u.isActive
  }

  /** `send_code_auth` (GET /send-code-auth/<username>): route an
      unverified account to its challenge. With an outstanding JWT on the
      row, an authenticated caller with SMS capability only gets the
      session marker (no message is sent); otherwise a captured address
      with a link route, on an active account, is mailed the link and the
      stored JWT is cleared. */
  function SendCodeAuth(db: Db, s: Session, username: string, hasSms: bool, mail: Mail, now: int): (st: Step)
    ensures !JwtValid(s, now) ==> st.db == db && st.session == s && st.outcome == Unauthorized
    ensures st.session != s ==> st.session == s.(shortcodeFlag := Some(0)) && s.shortcodeFlag.None?
                                && LoggedIn(db, s) && hasSms && st.db == db
    ensures st.db != db ==>
              && mail == Delivered && GetUser(db, username).Some?
              && var u := db.users[GetUser(db, username).value];
                 && !u.isVerified && u.token.Some? && u.email.Some? && u.authLinkRoute.Some? && u.isActive
                 && st.db == UpdateUser(db, GetUser(db, username).value, u.(token := None))
                 && st.outcome == UrlBody(AuthorizeView(username))
    ensures JwtValid(s, now) && GetUser(db, username).Some? && db.users[GetUser(db, username).value].isVerified ==>
              st.db == db && st.outcome == Redirect(IndexView(username))
    ensures JwtValid(s, now) && GetUser(db, username).Some? && SmsChallenge(db, s, username, hasSms) ==>
              st == Step(db, s.(shortcodeFlag := Some(0)), Redirect(AuthorizeView(username)))
    ensures JwtValid(s, now) && GetUser(db, username).Some? && !SmsChallenge(db, s, username, hasSms)
            && LinkMailable(db.users[GetUser(db, username).value]) && mail == Delivered ==>
              var i := GetUser(db, username).value;
              st == Step(UpdateUser(db, i, db.users[i].(token := None)), s, UrlBody(AuthorizeView(username)))
  {
    if !JwtValid(s, now) then Step(db, s, Unauthorized)
    else match GetUser(db, username)
      case None => Step(db, s, ServerError(AttributeError))   // `False.is_verified`
      case Some(i) =>
        var u := db.users[i];
        if u.isVerified then Step(db, s, Redirect(IndexView(username)))
        else if u.token.Some? && LoggedIn(db, s) && hasSms && s.shortcodeFlag.None? then
          Step(db, s.(shortcodeFlag := Some(0)), Redirect(AuthorizeView(username)))
        else if u.token.Some? && u.email.Some? && u.authLinkRoute.None? then
          Step(db, s, Redirect(IndexView(username)))
        else if u.token.Some? && u.email.Some? && u.isActive then
          match mail
          case Delivered => Step(UpdateUser(db, i, u.(token := None)), s, UrlBody(AuthorizeView(username)))
          case RaisedTypeError => Step(db, s, Redirect(AuthorizeView(username)))
          case RaisedOther => Step(db, s, ServerError(MailError))
        else Step(db, s, Redirect(AuthorizeView(username)))
  }

  /** The session counter as `authorize_post` reads it after initialising
      a missing one to 0. */
  function AttemptsSoFar(s: Session): int {
    if s.attempts.Some? then s.attempts.value else 0
  }

  /** `authorize_post` (POST /authorize/post/<username>): compare the
      submitted text with the stored code. A match verifies the account and
      clears the code and the counter, and then fails building the redirect
      to `auth.send_auth_onboard_email`, an endpoint the blueprint does not
      have. A mismatch counts against the session; the third clears the
      stored code and the counter. */
  function AuthorizePost(db: Db, s: Session, username: string, isPost: bool, candidate: Option<string>): (st: Step)
    ensures GetUser(db, username).None? ==> st == Step(db, s, ServerError(AttributeError))
    ensures !isPost ==> st.db == db && st.session == s
    ensures GetUser(db, username).Some? && !isPost ==> st == Step(db, s, Redirect(AuthorizeView(username)))
    ensures st.session.loginId == s.loginId && st.session.bearer == s.bearer
    ensures GetUser(db, username).Some? && isPost && candidate.Some? ==>
              var i := GetUser(db, username).value;
              var u := db.users[i];
              if u.shortcode == candidate then
                && st.db == UpdateUser(db, i, u.(isVerified := true, shortcode := None))
                && st.session.attempts.None? && st.session.shortcodeFlag == Some(2)
                && st.outcome == ServerError(BuildError)
              else if AttemptsSoFar(s) + 1 == MaxAttempts then
                && st.db == UpdateUser(db, i, u.(shortcode := None))
                && st.session.attempts.None? && st.session.shortcodeFlag.None?
                && st.outcome == Redirect(AuthorizeView(username))
              else
                && st.db == db
                && st.session == s.(attempts := Some(AttemptsSoFar(s) + 1))
                && st.outcome == Redirect(AuthorizeView(username))
    ensures GetUser(db, username).Some? && isPost && candidate.None? ==>
              st.db == db && st.session == s.(attempts := Some(AttemptsSoFar(s))) && st.outcome == BadRequest
  {
    match GetUser(db, username)
    case None => Step(db, s, ServerError(AttributeError))   // `False.shortcode`
    case Some(i) =>
      var u := db.users[i];
      if !isPost then Step(db, s, Redirect(AuthorizeView(username)))
      else
        var s1 := s.(attempts := Some(AttemptsSoFar(s)));
        match candidate
        case None => Step(db, s1, BadRequest)   // `request.form['shortcode']` missing
        case Some(c) =>
          if u.shortcode == Some(c) then
            Step(UpdateUser(db, i, u.(isVerified := true, shortcode := None)),
                 s1.(attempts := None, shortcodeFlag := Some(2)),
                 ServerError(BuildError))
          else
            var n := AttemptsSoFar(s) + 1;
            if MaxAttempts - n == 0 then
              Step(UpdateUser(db, i, u.(shortcode := None)),
                   s1.(attempts := None, shortcodeFlag := None),
                   Redirect(AuthorizeView(username)))
            else Step(db, s1.(attempts := Some(n)), Redirect(AuthorizeView(username)))
  }

  /** `authorize_post` with the success redirect going to the user's index
      page (the target the handler's commented-out line names). */
  function AuthorizePostCorrected(db: Db, s: Session, username: string, isPost: bool,
                                  candidate: Option<string>): (st: Step)
    ensures st.outcome != ServerError(BuildError)
    ensures GetUser(db, username).Some? && isPost && candidate.Some?
            && db.users[GetUser(db, username).value].shortcode == candidate ==>
              var i := GetUser(db, username).value;
              && st.db == UpdateUser(db, i, db.users[i].(isVerified := true, shortcode := None))
              && st.outcome == Redirect(IndexView(username))
  {
    var st := AuthorizePost(db, s, username, isPost, candidate);
    if st.outcome == ServerError(BuildError) then st.(outcome := Redirect(IndexView(username))) else st
  }

  /** `authorize` (GET /authorize/<username>): the stage router. An
      authenticated caller with SMS capability and no challenge marker in
      the session gets a fresh code; otherwise the account goes to e-mail
      capture, to link dispatch, or to its index page. */
  function Authorize(db: Db, s: Session, username: string, hasSms: bool, draw: nat, now: int): (st: Step)
    ensures st.session == s
    ensures st.outcome != Redirect(LoginView)
    ensures !JwtValid(s, now) ==> st.db == db && st.outcome == Unauthorized
    ensures st.db != db ==>
              && LoggedIn(db, s) && hasSms && s.shortcodeFlag.None?
              && GetUser(db, username).Some? && !db.users[GetUser(db, username).value].isVerified
              && st.db == VerifyCurrentUser(db, username, draw)
              && st.outcome == Redirect(SendCodeView(username))
    ensures JwtValid(s, now) && GetUser(db, username).Some? && LoggedIn(db, s) && hasSms && s.shortcodeFlag.None?
            && !db.users[GetUser(db, username).value].isVerified ==>
              st.db == VerifyCurrentUser(db, username, draw) && st.outcome == Redirect(SendCodeView(username))
    ensures JwtValid(s, now) && GetUser(db, username).Some? ==>
              var u := db.users[GetUser(db, username).value];
              !(LoggedIn(db, s) && hasSms && s.shortcodeFlag.None? && !u.isVerified) ==>
                && st.db == db
                && st.outcome == Redirect(
                     if u.email.None? then VerifyView(username)
                     else if u.authLinkRoute.Some? && !u.isVerified then SendCodeView(username)
                     else IndexView(username))
  {
    if !JwtValid(s, now) then Step(db, s, Unauthorized)
    else match GetUser(db, username)
      case None => Step(db, s, ServerError(AttributeError))   // `False.shortcode`
      case Some(i) =>
        var u := db.users[i];
        if LoggedIn(db, s) && hasSms && s.shortcodeFlag.None? && !u.isVerified then
          Step(VerifyCurrentUser(db, username, draw), s, Redirect(SendCodeView(username)))
        else if u.email.None? then Step(db, s, Redirect(VerifyView(username)))
        else if u.authLinkRoute.Some? && !u.isVerified then Step(db, s, Redirect(SendCodeView(username)))
        else if u.authLinkRoute.None? || u.isVerified then Step(db, s, Redirect(IndexView(username)))
        else Step(db, s, Redirect(LoginView))
  }

  /** A visit to the link page: a route equal to the stored one verifies
      the account; the route itself stays on the row. */
  function LinkVisit(db: Db, s: Session, username: string, route: string): (st: Step)
    ensures st.session == s
    ensures GetUser(db, username).None? ==> st.db == db && st.outcome == ServerError(AttributeError)
    ensures GetUser(db, username).Some? ==>
              var i := GetUser(db, username).value;
              && st.outcome == Redirect(AuthorizeView(username))
              && (if db.users[i].authLinkRoute == Some(route)
                  then st.db == UpdateUser(db, i, db.users[i].(isVerified := true))
                  else st.db == db)
  {
    match GetUser(db, username)
    case None => Step(db, s, ServerError(AttributeError))   // `False.auth_link_route`
    case Some(i) =>
      var u := db.users[i];
      if u.authLinkRoute == Some(route) then
        Step(UpdateUser(db, i, u.(isVerified := true)), s, Redirect(AuthorizeView(username)))
      else Step(db, s, Redirect(AuthorizeView(username)))
  }

  /** `authorize_link` (GET /<username>/<auth_link_route>): the route
      variable uses the default converter, so it is one path segment. */
  function AuthorizeLink(db: Db, s: Session, username: string, route: string): (st: Step)
    requires PathSegment(route)
    ensures st.session == s
    ensures GetUser(db, username).Some? ==>
              var i := GetUser(db, username).value;
              && st.outcome == Redirect(AuthorizeView(username))
              && (db.users[i].authLinkRoute == Some(route) ==>
                    st.db == UpdateUser(db, i, db.users[i].(isVerified := true)))
              && (db.users[i].authLinkRoute != Some(route) ==> st.db == db)
    ensures GetUser(db, username).None? ==> st.db == db && st.outcome == ServerError(AttributeError)
  {
    LinkVisit(db, s, username, route)
  }

  /** `authorize_link` declared with a `path` converter, so that the route
      variable can hold a `/` as the generated links do. */
  function AuthorizeLinkCorrected(db: Db, s: Session, username: string, route: string): (st: Step)
    requires |route| > 0
    ensures st.session == s
    ensures GetUser(db, username).Some? ==>
              var i := GetUser(db, username).value;
              && st.outcome == Redirect(AuthorizeView(username))
              && (db.users[i].authLinkRoute == Some(route) ==>
                    st.db == UpdateUser(db, i, db.users[i].(isVerified := true)))
              && (db.users[i].authLinkRoute != Some(route) ==> st.db == db)
  {
    LinkVisit(db, s, username, route)
  }

  /** `logout`: behind this module's own `login_required`, drop the
      flask-login user and the access cookie. The database is untouched. */
  function Logout(db: Db, s: Session): (st: Step)
    ensures st.db == db && st.outcome == Redirect(LoginView)
    ensures LoggedIn(db, s) ==> st.session == s.(loginId := None, bearer := None)
    ensures !LoggedIn(db, s) ==> st.session == s
  {
    if !LoggedIn(db, s) then Step(db, s, Redirect(LoginView))
    else Step(db, s.(loginId := None, bearer := None), Redirect(LoginView))
  }
}

=== FILE: auth_flow.dfy ===
/** The account-verification state machine as a whole: every request the
    `auth` and `user` blueprints serve, dispatched over the shared
    database and one browser's session, and the invariants and scenarios
    that only show across several requests. */
module AuthFlow {
  import opened Maybe
  import Text
  import Forms
  import opened Models
  import opened Web
  import opened Auth
  import UserViews

  /** What the collaborators contribute to one request: the clock, the
      `sms` capability of `current_user`, and the password hasher. */
  datatype Env = Env(now: int, hasSms: bool, hasher: Hasher)

  /** One request, with the inputs its handler reads. */
  datatype Request =
    | RegisterReq(isPost: bool, formUsername: Option<string>, password: Option<string>, salt: string)
    | VerifyReq(username: string, isPost: bool, email: Option<string>, accessToken: string)
    | LoginReq(isPost: bool, formUsername: Option<string>, password: Option<string>, next: Option<string>,
               nextIsSafe: bool)
    | OnboardReq(username: string, mail: Mail)
    | SendCodeReq(username: string, mail: Mail)
    | SubmitCodeReq(username: string, isPost: bool, candidate: Option<string>)
    | AuthorizeReq(username: string, draw: nat)
    | LinkReq(username: string, route: string)
    | LogoutReq
    | IndexReq(username: string)
    | GetUsersReq(username: string)
    | GetUserReq(userId: nat)

  /** The request reaches its view: every `<username>` and
      `<auth_link_route>` path variable uses the default converter, so it
      must be one non-empty segment without `/`. */
  predicate Routable(req: Request) {
    match req
    case VerifyReq(u, _, _, _) => PathSegment(u)
    case OnboardReq(u, _) => PathSegment(u)
    case SendCodeReq(u, _) => PathSegment(u)
    case SubmitCodeReq(u, _, _) => PathSegment(u)
    case AuthorizeReq(u, _) => PathSegment(u)
    case LinkReq(u, route) => PathSegment(u) && PathSegment(route)
    case IndexReq(u) => PathSegment(u)
    case GetUsersReq(u) => PathSegment(u)
    case _ => true
  }

  /** Dispatch one request to its handler; a request whose path variables
      no route accepts gets a 404 and changes nothing. */
  function Handle(env: Env, db: Db, s: Session, req: Request): (st: Step)
    requires Valid(db)
  {
    if !Routable(req) then Step(db, s, NotFound)
    else match req
    case RegisterReq(isPost, u, p, salt) => Register(db, s, isPost, u, p, env.hasher, salt, env.now)
    case VerifyReq(u, isPost, e, jwt) => VerifyPost(db, s, u, isPost, e, jwt, env.now)
    case LoginReq(isPost, u, p, next, safe) => Login(db, s, isPost, u, p, next, safe, env.hasher, env.now)
    case OnboardReq(u, mail) => SendOnboardEmail(db, s, u, mail, env.now)
    case SendCodeReq(u, mail) => SendCodeAuth(db, s, u, env.hasSms, mail, env.now)
    case SubmitCodeReq(u, isPost, c) => AuthorizePost(db, s, u, isPost, c)
    case AuthorizeReq(u, draw) => Authorize(db, s, u, env.hasSms, draw, env.now)
    case LinkReq(u, route) => AuthorizeLink(db, s, u, route)
    case LogoutReq => Logout(db, s)
    case IndexReq(u) => UserViews.Index(db, s, u, env.now)
    case GetUsersReq(u) => UserViews.GetUsers(db, s, u)
    case GetUserReq(id) => UserViews.GetUserById(db, s, id)
  }

  /** Dispatch with the defects corrected: the login response always
      built, the success redirect of the code check pointing at the index,
      the link route declared with a `path` converter so that it takes
      several segments, and the `user` views calling the lookup they
      import. Every other request is served as `Handle` serves it. */
  function HandleCorrected(env: Env, db: Db, s: Session, req: Request): (st: Step)
    requires Valid(db)
  {
    if !RoutableCorrected(req) then Step(db, s, NotFound)
    else match req
    case LoginReq(isPost, u, p, next, safe) => LoginCorrected(db, s, isPost, u, p, next, safe, env.hasher, env.now)
    case SubmitCodeReq(u, isPost, c) => AuthorizePostCorrected(db, s, u, isPost, c)
    case LinkReq(u, route) => AuthorizeLinkCorrected(db, s, u, route)
    case IndexReq(u) => UserViews.IndexCorrected(db, s, u, env.now)
    case GetUsersReq(u) => UserViews.GetUsersAdminOnly(db, s, u)
    case _ => Handle(env, db, s, req)
  }

  /** `Routable` with the link route taking any non-empty path. */
  predicate RoutableCorrected(req: Request) {
    if req.LinkReq? then PathSegment(req.username) && |req.route| > 0 else Routable(req)
  }

  /** `db'` is a legal successor of `db`: the constraints still hold, no
      row was deleted, and every existing row keeps its id and username. */
  predicate Grows(db: Db, db': Db) {
    && Valid(db')
    && |db'.users| >= |db.users|
    && forall i :: 0 <= i < |db.users| ==>
         db'.users[i].id == db.users[i].id && db'.users[i].username == db.users[i].username
  }

  /** Appending a row with the next id, a fresh username and no e-mail
      keeps the constraints. */
  lemma AppendUserKeepsValid(db: Db, u: User)
    requires Valid(db)
    requires u.id == |db.users| + 1 && u.email.None?
    requires forall j :: 0 <= j < |db.users| ==> db.users[j].username != u.username
    ensures Valid(db.(users := db.users + [u]))
  {
  }

  /** Rewriting one row without touching its id, username or e-mail is a
      legal successor. */
  lemma UpdateGrows(db: Db, i: nat, u: User)
    requires Valid(db) && i < |db.users|
    requires u.id == db.users[i].id && u.username == db.users[i].username && u.email == db.users[i].email
    ensures Grows(db, UpdateUser(db, i, u))
  {
    UpdateUserKeepsValid(db, i, u);
  }

  lemma RegisterGrows(db: Db, s: Session, isPost: bool, u: Option<string>, p: Option<string>,
                      hasher: Hasher, salt: string, now: int)
    requires Valid(db)
    ensures Grows(db, Register(db, s, isPost, u, p, hasher, salt, now).db)
  {
    var st := Register(db, s, isPost, u, p, hasher, salt, now);
    if st.db != db {
      var row := st.db.users[|db.users|];
      assert st.db == db.(users := db.users + [row]);
      AppendUserKeepsValid(db, row);
      forall i | 0 <= i < |db.users| ensures st.db.users[i] == db.users[i] {
        assert st.db.users[i] == st.db.users[..|db.users|][i];
      }
    }
  }

  lemma VerifyGrows(db: Db, s: Session, u: string, isPost: bool, e: Option<string>, jwt: string, now: int)
    requires Valid(db)
    ensures Grows(db, VerifyPost(db, s, u, isPost, e, jwt, now).db)
  {
    var st := VerifyPost(db, s, u, isPost, e, jwt, now);
    if st.db != db {
      var i := GetUser(db, u).value;
      UpdateUserKeepsValid(db, i, db.users[i].(email := e, token := Some(jwt), currentAuthTime := now));
    }
  }

  lemma LoginGrows(db: Db, s: Session, isPost: bool, u: Option<string>, p: Option<string>,
                   next: Option<string>, safe: bool, hasher: Hasher, now: int)
    requires Valid(db)
    ensures Grows(db, Login(db, s, isPost, u, p, next, safe, hasher, now).db)
    ensures Grows(db, LoginCorrected(db, s, isPost, u, p, next, safe, hasher, now).db)
  {
    if Login(db, s, isPost, u, p, next, safe, hasher, now).db != db
       || LoginCorrected(db, s, isPost, u, p, next, safe, hasher, now).db != db {
      var i := GetUser(db, u.value).value;
      UpdateGrows(db, i, db.users[i].(lastLogin := now, currentAuthTime := now));
    }
  }

  lemma OnboardGrows(db: Db, s: Session, u: string, mail: Mail, now: int)
    requires Valid(db)
    ensures Grows(db, SendOnboardEmail(db, s, u, mail, now).db)
  {
    if SendOnboardEmail(db, s, u, mail, now).db != db {
      var i := GetUser(db, u).value;
      UpdateGrows(db, i, db.users[i].(isActive := true));
    }
  }

  lemma SendCodeGrows(db: Db, s: Session, u: string, hasSms: bool, mail: Mail, now: int)
    requires Valid(db)
    ensures Grows(db, SendCodeAuth(db, s, u, hasSms, mail, now).db)
  {
    if SendCodeAuth(db, s, u, hasSms, mail, now).db != db {
      var i := GetUser(db, u).value;
      UpdateGrows(db, i, db.users[i].(token := None));
    }
  }

  lemma SubmitGrows(db: Db, s: Session, u: string, isPost: bool, c: Option<string>)
    requires Valid(db)
    ensures Grows(db, AuthorizePost(db, s, u, isPost, c).db)
    ensures Grows(db, AuthorizePostCorrected(db, s, u, isPost, c).db)
  {
    if AuthorizePost(db, s, u, isPost, c).db != db || AuthorizePostCorrected(db, s, u, isPost, c).db != db {
      var i := GetUser(db, u).value;
      UpdateGrows(db, i, db.users[i].(isVerified := true, shortcode := None));
      UpdateGrows(db, i, db.users[i].(shortcode := None));
    }
  }

  lemma AuthorizeGrows(db: Db, s: Session, u: string, hasSms: bool, draw: nat, now: int)
    requires Valid(db)
    ensures Grows(db, Authorize(db, s, u, hasSms, draw, now).db)
  {
    if Authorize(db, s, u, hasSms, draw, now).db != db {
      var i := GetUser(db, u).value;
      UpdateGrows(db, i, db.users[i].(shortcode := Some(StoredShortcode(draw))));
    }
  }

  lemma LinkGrows(db: Db, s: Session, u: string, route: string)
    requires Valid(db)
    ensures Grows(db, LinkVisit(db, s, u, route).db)
  {
    if LinkVisit(db, s, u, route).db != db {
      var i := GetUser(db, u).value;
      UpdateGrows(db, i, db.users[i].(isVerified := true));
    }
  }

  lemma IndexGrows(db: Db, s: Session, u: string, now: int)
    requires Valid(db)
    ensures Grows(db, UserViews.Index(db, s, u, now).db)
    ensures Grows(db, UserViews.IndexCorrected(db, s, u, now).db)
  {
    if UserViews.IndexCorrected(db, s, u, now).db != db {
      var i := UserViews.JwtUser(db, s).value;
      UpdateGrows(db, i, db.users[i].(authLinkRoute := Some(UserViews.AuthLink(u))));
    }
  }

  /** Every request keeps the unique constraints and the id order, deletes
      no row, and changes no existing row's id or username. */
  lemma HandleKeepsValid(env: Env, db: Db, s: Session, req: Request)
    requires Valid(db)
    ensures Grows(db, Handle(env, db, s, req).db)
  {
    if Routable(req) {
      match req
      case RegisterReq(isPost, u, p, salt) => RegisterGrows(db, s, isPost, u, p, env.hasher, salt, env.now);
      case VerifyReq(u, isPost, e, jwt) => VerifyGrows(db, s, u, isPost, e, jwt, env.now);
      case LoginReq(isPost, u, p, next, safe) => LoginGrows(db, s, isPost, u, p, next, safe, env.hasher, env.now);
      case OnboardReq(u, mail) => OnboardGrows(db, s, u, mail, env.now);
      case SendCodeReq(u, mail) => SendCodeGrows(db, s, u, env.hasSms, mail, env.now);
      case SubmitCodeReq(u, isPost, c) => SubmitGrows(db, s, u, isPost, c);
      case AuthorizeReq(u, draw) => AuthorizeGrows(db, s, u, env.hasSms, draw, env.now);
      case LinkReq(u, route) => LinkGrows(db, s, u, route);
      case LogoutReq =>
      case IndexReq(u) => IndexGrows(db, s, u, env.now);
      case GetUsersReq(u) =>
      case GetUserReq(id) =>
    }
  }

  /** The corrected dispatch makes only legal successors as well. */
  lemma HandleCorrectedKeepsValid(env: Env, db: Db, s: Session, req: Request)
    requires Valid(db)
    ensures Grows(db, HandleCorrected(env, db, s, req).db)
  {
    if RoutableCorrected(req) {
      match req
      case LoginReq(isPost, u, p, next, safe) => LoginGrows(db, s, isPost, u, p, next, safe, env.hasher, env.now);
      case SubmitCodeReq(u, isPost, c) => SubmitGrows(db, s, u, isPost, c);
      case LinkReq(u, route) => LinkGrows(db, s, u, route);
      case IndexReq(u) => IndexGrows(db, s, u, env.now);
      case GetUsersReq(u) =>
      case _ => HandleKeepsValid(env, db, s, req);
    }
  }

  /** A row that exists before a request is still there afterwards, and
      a request that changed the database is one of the writers. */
  lemma RowSurvives(env: Env, db: Db, s: Session, req: Request, i: nat)
    requires Valid(db) && i < |db.users|
    ensures var st := Handle(env, db, s, req);
            && i < |st.db.users|
            && (req.RegisterReq? ==> st.db.users[i] == db.users[i])
  {
    HandleKeepsValid(env, db, s, req);
    var st := Handle(env, db, s, req);
    if req.RegisterReq? && st.db != db {
      assert st.db.users[..|db.users|] == db.users;
      assert st.db.users[i] == st.db.users[..|db.users|][i];
    }
  }

  /** `is_active` turns true only when the onboarding mail went out. */
  lemma GuardedActive(env: Env, db: Db, s: Session, req: Request, i: nat)
    requires Valid(db) && i < |db.users|
    ensures var st := Handle(env, db, s, req);
            i < |st.db.users| &&
            (!db.users[i].isActive && st.db.users[i].isActive ==> req.OnboardReq? && req.mail == Delivered)
  {
    RowSurvives(env, db, s, req, i);
  }

  /** `is_verified` turns true only on a matching shortcode or link route. */
  lemma GuardedVerified(env: Env, db: Db, s: Session, req: Request, i: nat)
    requires Valid(db) && i < |db.users|
    ensures var st := Handle(env, db, s, req);
            i < |st.db.users| &&
            (!db.users[i].isVerified && st.db.users[i].isVerified ==>
               || (req.SubmitCodeReq? && req.candidate.Some? && db.users[i].shortcode == req.candidate)
               || (req.LinkReq? && db.users[i].authLinkRoute == Some(req.route)))
  {
    RowSurvives(env, db, s, req, i);
  }

  /** The e-mail column changes only through e-mail capture, and only to
      a well-formed address. */
  lemma GuardedEmail(env: Env, db: Db, s: Session, req: Request, i: nat)
    requires Valid(db) && i < |db.users|
    ensures var st := Handle(env, db, s, req);
            i < |st.db.users| &&
            var e := st.db.users[i].email;
            (e != db.users[i].email ==>
               && req.VerifyReq? && e.Some?
               && 6 <= |e.value| <= 60 && '@' in e.value && '.' in e.value)
  {
    RowSurvives(env, db, s, req, i);
  }

  /** A shortcode is stored only by the stage router, and as six digits. */
  lemma GuardedShortcode(env: Env, db: Db, s: Session, req: Request, i: nat)
    requires Valid(db) && i < |db.users|
    ensures var st := Handle(env, db, s, req);
            i < |st.db.users| &&
            var c := st.db.users[i].shortcode;
            (c != db.users[i].shortcode && c.Some? ==>
               req.AuthorizeReq? && |c.value| == 6 && Text.IsDigits(c.value))
  {
    RowSurvives(env, db, s, req, i);
    if Routable(req) {
      match req
      case AuthorizeReq(u, draw) =>
      case SubmitCodeReq(u, isPost, c) =>
      case _ =>
    }
  }

  /** The session counter of wrong shortcodes is absent or below the limit. */
  predicate AttemptsBounded(s: Session) {
    s.attempts.None? || 0 <= s.attempts.value < MaxAttempts
  }

  /** Every request keeps the counter bounded: the submission that would
      reach the limit removes it instead. */
  lemma HandleKeepsAttemptsBounded(env: Env, db: Db, s: Session, req: Request)
    requires Valid(db) && AttemptsBounded(s)
    ensures AttemptsBounded(Handle(env, db, s, req).session)
  {
  }

  /** Rows with the same usernames in the same places answer `get_user`
      alike. */
  lemma SameUsernamesSameLookup(db: Db, db': Db, name: string)
    requires |db'.users| == |db.users|
    requires forall j :: 0 <= j < |db.users| ==> db'.users[j].username == db.users[j].username
    ensures GetUser(db', name) == GetUser(db, name)
  {
    var a, b := GetUser(db, name), GetUser(db', name);
    if a.Some? {
      assert db'.users[a.value].username == name;
    }
    if b.Some? {
      assert db.users[b.value].username == name;
    }
  }

  /** A run of shortcode submissions (POSTs carrying a code) from one
      browser against one account. */
  function SubmitAll(db: Db, s: Session, username: string, codes: seq<string>): (r: (Db, Session))
    decreases |codes|
  {
    if |codes| == 0 then (db, s)
    else
      var st := AuthorizePost(db, s, username, true, Some(codes[0]));
      SubmitAll(st.db, st.session, username, codes[1..])
  }

  /** Once the stored code is cleared, no run of submissions verifies the
      account or stores a code: nothing equals the cleared code. */
  lemma {:induction false} ClearedCodeCannotVerify(db: Db, s: Session, username: string, codes: seq<string>)
    requires GetUser(db, username).Some?
    requires db.users[GetUser(db, username).value].shortcode.None?
    ensures var r := SubmitAll(db, s, username, codes);
            var i := GetUser(db, username).value;
            && GetUser(r.0, username) == GetUser(db, username)
            && r.0.users[i] == db.users[i]
    decreases |codes|
  {
    if |codes| > 0 {
      var i := GetUser(db, username).value;
      var st := AuthorizePost(db, s, username, true, Some(codes[0]));
      assert db.users[i].(shortcode := None) == db.users[i];
      assert st.db.users[i] == db.users[i];
      SameUsernamesSameLookup(db, st.db, username);
      ClearedCodeCannotVerify(st.db, st.session, username, codes[1..]);
    }
  }

  /** Wrong submissions against a stored code: as many as the session has
      left (three for a fresh session) clear the code and the counter,
      and none of them verifies the account. */
  lemma {:induction false} WrongCodesExhaust(db: Db, s: Session, username: string, codes: seq<string>)
    requires GetUser(db, username).Some?
    requires db.users[GetUser(db, username).value].shortcode.Some?
    requires AttemptsBounded(s)
    requires |codes| == MaxAttempts - AttemptsSoFar(s)
    requires forall k :: 0 <= k < |codes| ==> Some(codes[k]) != db.users[GetUser(db, username).value].shortcode
    ensures var r := SubmitAll(db, s, username, codes);
            var i := GetUser(db, username).value;
            && GetUser(r.0, username) == GetUser(db, username)
            && r.0.users[i] == db.users[i].(shortcode := None)
            && r.1.attempts.None?
    decreases |codes|
  {
    var i := GetUser(db, username).value;
    var st := AuthorizePost(db, s, username, true, Some(codes[0]));
    SameUsernamesSameLookup(db, st.db, username);
    if |codes| == 1 {
      assert SubmitAll(st.db, st.session, username, codes[1..]) == (st.db, st.session);
    } else {
      assert st.db == db;
      assert AttemptsSoFar(st.session) == AttemptsSoFar(s) + 1;
      WrongCodesExhaust(st.db, st.session, username, codes[1..]);
    }
  }

  /** Fewer wrong submissions than the session has left change nothing in
      the database: the stored code stays. */
  lemma {:induction false} WrongCodesBelowLimit(db: Db, s: Session, username: string, codes: seq<string>)
    requires GetUser(db, username).Some?
    requires AttemptsBounded(s)
    requires |codes| < MaxAttempts - AttemptsSoFar(s)
    requires forall k :: 0 <= k < |codes| ==> Some(codes[k]) != db.users[GetUser(db, username).value].shortcode
    ensures SubmitAll(db, s, username, codes).0 == db
    decreases |codes|
  {
    if |codes| > 0 {
      var st := AuthorizePost(db, s, username, true, Some(codes[0]));
      assert st.db == db;
      assert AttemptsSoFar(st.session) == AttemptsSoFar(s) + 1;
      WrongCodesBelowLimit(st.db, st.session, username, codes[1..]);
    }
  }

  /** Runs of submissions, each from a browser with a fresh session
      cookie, as a client that drops its cookie between runs sends them. */
  function SubmitFromFreshSessions(db: Db, username: string, runs: seq<seq<string>>): (db': Db)
    decreases |runs|
  {
    if |runs| == 0 then db
    else SubmitFromFreshSessions(SubmitAll(db, FreshSession, username, runs[0]).0, username, runs[1..])
  }

  /** The limit of three wrong codes is kept in the session cookie, not on
      the account: a client that starts a fresh session after every two
      misses can submit any number of wrong codes and the stored code is
      never cleared. */
  lemma {:induction false} FreshSessionResetsCounter(db: Db, username: string, runs: seq<seq<string>>)
    requires GetUser(db, username).Some?
    requires forall r :: 0 <= r < |runs| ==> |runs[r]| < MaxAttempts
    requires forall r, k :: 0 <= r < |runs| && 0 <= k < |runs[r]| ==>
               Some(runs[r][k]) != db.users[GetUser(db, username).value].shortcode
    ensures SubmitFromFreshSessions(db, username, runs) == db
    decreases |runs|
  {
    if |runs| > 0 {
      assert forall k :: 0 <= k < |runs[0]| ==>
               Some(runs[0][k]) != db.users[GetUser(db, username).value].shortcode;
      WrongCodesBelowLimit(db, FreshSession, username, runs[0]);
      assert forall r, k :: 0 <= r < |runs[1..]| && 0 <= k < |runs[1..][r]| ==>
               Some(runs[1..][r][k]) != db.users[GetUser(db, username).value].shortcode by {
        forall r, k | 0 <= r < |runs[1..]| && 0 <= k < |runs[1..][r]|
          ensures Some(runs[1..][r][k]) != db.users[GetUser(db, username).value].shortcode {
          assert runs[1..][r] == runs[r + 1];
        }
      }
      FreshSessionResetsCounter(db, username, runs[1..]);
    }
  }

  /** The right code verifies the account and clears it; sending the same
      code again then counts as a wrong submission. */
  lemma RightCodeWorksOnce(db: Db, s: Session, username: string, code: string)
    requires GetUser(db, username).Some?
    requires db.users[GetUser(db, username).value].shortcode == Some(code)
    ensures var i := GetUser(db, username).value;
            var first := AuthorizePost(db, s, username, true, Some(code));
            var again := AuthorizePost(first.db, first.session, username, true, Some(code));
            && first.db.users[i].isVerified && first.db.users[i].shortcode.None?
            && first.session.attempts.None?
            && again.outcome == Redirect(AuthorizeView(username))
            && again.db == first.db
            && again.session.attempts == Some(1)
  {
    var first := AuthorizePost(db, s, username, true, Some(code));
    SameUsernamesSameLookup(db, first.db, username);
  }

  /** Registering the same username twice: the first adds the one row,
      the second is sent back to the form and writes nothing. */
  lemma RegisterTwice(db: Db, s: Session, name: string, p1: string, p2: string, hasher: Hasher,
                      salt1: string, salt2: string, t1: int, t2: int)
    requires Valid(db) && GetUser(db, name).None?
    requires Forms.RegisterFormValid(Some(name), Some(p1)) && Forms.RegisterFormValid(Some(name), Some(p2))
    ensures var first := Register(db, s, true, Some(name), Some(p1), hasher, salt1, t1);
            var second := Register(first.db, first.session, true, Some(name), Some(p2), hasher, salt2, t2);
            && GetUser(first.db, name) == Some(|db.users|)
            && second.db == first.db
            && second.outcome == Redirect(RegisterView)
            && (forall j :: 0 <= j < |second.db.users| && second.db.users[j].username == name ==> j == |db.users|)
  {
    var first := Register(db, s, true, Some(name), Some(p1), hasher, salt1, t1);
    assert first.db.users[|db.users|].username == name;
    forall j | 0 <= j < |db.users|
      ensures first.db.users[j] == db.users[j]
    {
      assert first.db.users[j] == first.db.users[..|db.users|][j];
    }
  }

  /** Logging out ends the login and the access cookie but leaves the
      shortcode challenge the session is in the middle of. */
  lemma LogoutKeepsChallenge(db: Db, s: Session)
    ensures var st := Logout(db, s);
            && !LoggedIn(db, st.session) && st.session.bearer.None? == (LoggedIn(db, s) || s.bearer.None?)
            && st.session.attempts == s.attempts && st.session.shortcodeFlag == s.shortcodeFlag
  {
  }

  /** The link `generate_auth_link` hands out has two path segments after
      the username, so as routed it reaches no handler, and the account
      stays as it was. */
  lemma GeneratedLinkNeverRouted(env: Env, db: Db, s: Session, username: string)
    requires Valid(db)
    ensures Handle(env, db, s, LinkReq(username, UserViews.AuthLink(username))) == Step(db, s, NotFound)
  {
    assert '/' in UserViews.AuthLink(username);
  }

  /** Against a row holding the generated route, no visit the router can
      deliver verifies the account. */
  lemma StoredLinkNeverMatches(env: Env, db: Db, s: Session, username: string, route: string)
    requires Valid(db) && GetUser(db, username).Some?
    requires db.users[GetUser(db, username).value].authLinkRoute == Some(UserViews.AuthLink(username))
    ensures Handle(env, db, s, LinkReq(username, route)).db == db
  {
    if PathSegment(route) {
      assert route != UserViews.AuthLink(username);
    }
  }

  /** The `<username>` path variable of a request, if its route has one. */
  function UsernameOf(req: Request): Option<string> {
    match req
    case VerifyReq(u, _, _, _) => Some(u)
    case OnboardReq(u, _) => Some(u)
    case SendCodeReq(u, _) => Some(u)
    case SubmitCodeReq(u, _, _) => Some(u)
    case AuthorizeReq(u, _) => Some(u)
    case LinkReq(u, _) => Some(u)
    case IndexReq(u) => Some(u)
    case GetUsersReq(u) => Some(u)
    case _ => None
  }

  /** The register form lets a `/` into a username. Such an account is
      created and sent on to e-mail capture, but no page of its own is
      ever reached: every request naming it in the path gets a 404 and
      changes nothing. */
  lemma SlashedNameStranded(env: Env, db: Db, s: Session, name: string, password: string, salt: string,
                            req: Request)
    requires Valid(db) && '/' in name && GetUser(db, name).None?
    requires Forms.RegisterFormValid(Some(name), Some(password))
    requires UsernameOf(req) == Some(name)
    ensures var reg := Handle(env, db, s, RegisterReq(true, Some(name), Some(password), salt));
            && GetUser(reg.db, name).Some?
            && reg.outcome == Redirect(VerifyView(name))
            && Handle(env, reg.db, reg.session, req) == Step(reg.db, reg.session, NotFound)
  {
    var reg := Handle(env, db, s, RegisterReq(true, Some(name), Some(password), salt));
    HandleKeepsValid(env, db, s, RegisterReq(true, Some(name), Some(password), salt));
    assert reg.db.users[|db.users|].username == name;
    assert !Routable(req);
  }

  /** With the lookup and the route converter as intended, the link the
      index page stores is the one that verifies the account. */
  lemma CorrectedLinkVerifies(env: Env, db: Db, s: Session, username: string)
    requires Valid(db) && PathSegment(username)
    requires JwtValid(s, env.now) && s.bearer.value.identity == username
    requires UserViews.JwtUser(db, s).Some?
    requires var u := db.users[UserViews.JwtUser(db, s).value]; u.isActive && !u.isVerified
    ensures var i := UserViews.JwtUser(db, s).value;
            var idx := HandleCorrected(env, db, s, IndexReq(username));
            Valid(idx.db) &&
            var st := HandleCorrected(env, idx.db, idx.session, LinkReq(username, UserViews.AuthLink(username)));
            && idx.outcome == Redirect(MainSite)
            && st.db.users[i].isVerified
            && st.outcome == Redirect(AuthorizeView(username))
  {
    var idx := HandleCorrected(env, db, s, IndexReq(username));
    HandleCorrectedKeepsValid(env, db, s, IndexReq(username));
    SameUsernamesSameLookup(db, idx.db, username);
  }

  /** The link path verifies an account without touching a shortcode
      that is still outstanding: verified and a pending code can hold
      together. */
  lemma LinkLeavesCodeOutstanding(db: Db, s: Session, username: string, route: string)
    requires PathSegment(route) && GetUser(db, username).Some?
    requires var u := db.users[GetUser(db, username).value];
             u.authLinkRoute == Some(route) && u.shortcode.Some?
    ensures var i := GetUser(db, username).value;
            var st := AuthorizeLink(db, s, username, route);
            st.db.users[i].isVerified && st.db.users[i].shortcode == db.users[i].shortcode
  {
  }

  /** The draw 382913 is stored as the code text "482913". */
  lemma StoredShortcodeExample()
    ensures StoredShortcode(382913) == "482913"
  {
    assert GenerateShortcode(382913) == 482913;
    assert Text.Digits(4) == "4";
    assert Text.Digits(48) == "48";
    assert Text.Digits(482) == "482";
    assert Text.Digits(4829) == "4829";
    assert Text.Digits(48291) == "48291";
  }

  /** Alice, signed in and active with an address on file, before any
      challenge. */
  function AliceRow(): (u: User)
    ensures u.username == "alice" && u.id == 1 && u.isActive && !u.isVerified && u.shortcode.None?
  {
    User(1, "alice", Some("alice@example.org"), PasswordHash("salt", "digest"),
         None, false, true, false, 0, 0, 0, None, None)
  }

  /** "alice" is one path segment. */
  lemma AliceRoutable()
    ensures PathSegment("alice")
  {
    assert forall i :: 0 <= i < 5 ==> "alice"[i] != '/';
  }

  const AliceSession := Session(None, None, Some(1), Some(Bearer("alice", 100)))

  /** The stage router draws 382913 for Alice and stores code 482913. */
  lemma AliceGetsCode(hasher: Hasher)
    ensures Handle(Env(200, true, hasher), Db([AliceRow()], []), AliceSession, AuthorizeReq("alice", 382913))
            == Step(Db([AliceRow().(shortcode := Some("482913"))], []), AliceSession, Redirect(SendCodeView("alice")))
  {
    var db0 := Db([AliceRow()], []);
    AliceRoutable();
    assert GetUser(db0, "alice") == Some(0);
    assert LoggedIn(db0, AliceSession);
    StoredShortcodeExample();
  }

  /** Two mistyped codes count up the session and leave the row alone;
      the right one then verifies Alice, clears her code and the counter,
      and ends in the failed redirect. */
  lemma AliceSubmits(hasher: Hasher)
    ensures var env := Env(200, true, hasher);
            var db1 := Db([AliceRow().(shortcode := Some("482913"))], []);
            var st2 := Handle(env, db1, AliceSession, SubmitCodeReq("alice", true, Some("111111")));
            var st3 := Handle(env, st2.db, st2.session, SubmitCodeReq("alice", true, Some("428913")));
            var st4 := Handle(env, st3.db, st3.session, SubmitCodeReq("alice", true, Some("482913")));
            && st3 == Step(db1, AliceSession.(attempts := Some(2)), Redirect(AuthorizeView("alice")))
            && st4 == Step(Db([AliceRow().(isVerified := true)], []), AliceSession.(shortcodeFlag := Some(2)),
                           ServerError(BuildError))
  {
    var db1 := Db([AliceRow().(shortcode := Some("482913"))], []);
    AliceRoutable();
    assert GetUser(db1, "alice") == Some(0);
    assert "111111" != "482913" by { assert "111111"[0] != "482913"[0]; }
    assert "428913" != "482913" by { assert "428913"[1] != "482913"[1]; }
  }
}

=== FILE: forms.dfy ===
/** The WTForms validators of `forms.py`, as predicates over the submitted
    field (absent when the request carries no such field). */
module Forms {
  import opened Maybe
  import Text

  /** `validators.DataRequired()`: present, and not empty after stripping. */
  predicate DataRequired(field: Option<string>) {
    field.Some? && !Text.IsBlank(field.value)
  }

  /** `validators.Length(lo, hi)`: an absent field counts as length 0. */
  predicate Length(field: Option<string>, lo: nat, hi: nat) {
    var n := if field.Some? then |field.value| else 0;
    lo <= n <= hi
  }

  /** The username and password fields shared by `LoginForm` and
      `RegisterForm`. */
  function CredentialsValid(username: Option<string>, password: Option<string>): (ok: bool)
    ensures ok ==> username.Some? && 1 <= |username.value| <= 20
    ensures ok ==> password.Some? && 8 <= |password.value| <= 150
    ensures username.Some? && Text.IsBlank(username.value) ==> !ok
    ensures password.Some? && Text.IsBlank(password.value) ==> !ok
  {
    && DataRequired(username) && Length(username, 1, 20)
    && DataRequired(password) && Length(password, 8, 150)
  }

  /** `LoginForm.validate()`; the `remember` box carries no validator. */
  predicate LoginFormValid(username: Option<string>, password: Option<string>) {
    CredentialsValid(username, password)
  }

  /** `RegisterForm.validate()`: the same two fields as the login form. */
  predicate RegisterFormValid(username: Option<string>, password: Option<string>) {
    CredentialsValid(username, password)
  }

  /** `VerifyForm.validate()`. */
  function VerifyFormValid(email: Option<string>): (ok: bool)
    ensures ok ==> email.Some? && 5 <= |email.value| <= 60
    ensures email.Some? && Text.IsBlank(email.value) ==> !ok
  {
    DataRequired(email) && Length(email, 5, 60)
  }

  /** `AuthForm.validate()`. The `shortcode` field is an `IntegerField`,
      so its validators see the parsed number, or none when the submitted
      text is missing or not an integer. `DataRequired` stops the chain on
      none and on 0, which Python treats as false; any other number
      reaches `Length`, which asks for the length of an int and raises
      TypeError. No submission passes the form. */
  function AuthFormValidate(data: Option<int>): (r: Result<bool>)
    ensures r != Ok(true)
    ensures r.Raised? <==> data.Some? && data.value != 0
    ensures r.Raised? ==> r.error == TypeError
  {
    if data.None? || data.value == 0 then Ok(false)   // DataRequired stops the chain
    else Raised(TypeError)                            // `len` of an int inside Length
  }

  /** The credential fields accept submitted text exactly when it is
      non-blank and within the length bounds: the forms reject no more and
      no less than their validators say. */
  lemma CredentialsValidExactly(username: string, password: string)
    ensures CredentialsValid(Some(username), Some(password)) <==>
              && 1 <= |username| <= 20 && !Text.IsBlank(username)
              && 8 <= |password| <= 150 && !Text.IsBlank(password)
  {
  }
}

=== FILE: local_dev.dfy ===
/** The mock chat service of `local_dev.py`: a fixed table of canned
    replies picked by keyword, and the health probe. */
module LocalDev {
  import opened Maybe
  import Text
  import Query

  /** The keywords in the dictionary's insertion order, which is the
      order they are tried in. */
  const Keywords: seq<string> := ["hello", "quantum", "ai", "science", "python"]

  /** The canned replies, in the same order as their keywords. */
  const Replies: seq<string> := [HelloReply, QuantumReply, AiReply, ScienceReply, PythonReply]

  const HelloReply: string :=
    "Greetings, fellow scientist! Welcome to my laboratory of digital wonders! \U{1F9EA}\U{2697}\U{FE0F}"

  const QuantumReply: string :=
    "Ah, quantum mechanics! The realm where particles dance in superposition and reality becomes beautifully uncertain! In quantum computing, we harness these quantum states - qubits that can be both 0 and 1 simultaneously - to perform calculations that would make classical computers weep with envy! \U{1F30C}"

  const AiReply: string :=
    "Artificial Intelligence! My favorite creation! It's like teaching sand to think - we arrange silicon in clever patterns and suddenly it can recognize faces, write poetry, and engage in delightfully mad conversations like this one! \U{1F916}\U{2728}"

  const ScienceReply: string :=
    "Science is the art of organized curiosity! We observe, hypothesize, experiment, and occasionally blow things up in the name of knowledge! The universe is our laboratory, and every question leads to ten more delicious mysteries! \U{1F52C}\U{1F31F}"

  const PythonReply: string :=
    "Ah, Python! Not the snake, but the programming language that's as elegant as a serpent's movement! Named after Monty Python, it proves that coding can have a sense of humor. Clean syntax, powerful libraries, and perfect for mad science experiments! \U{1F40D}\U{1F4BB}"

  /** The reply when no keyword occurs in the message. */
  const DefaultReply: string :=
    "Most fascinating question! As a mad scientist, I believe the universe is full of delightful mysteries waiting to be unraveled! While I'm currently running in development mode with mock responses, imagine the real AI would provide deep insights about your query! \U{1F9EA}\U{26A1}"

  /** The model name every mock reply reports. */
  const MockModel: string := "mock-mad-scientist-v1.0"

  /** The body of a `/chat` reply. */
  datatype ChatResponse = ChatResponse(response: string, modelUsed: string)

  /** Which canned reply a message gets: the one for keyword `k`, or the
      default. */
  datatype Choice = Keyword(k: nat) | Fallback

  /** The keyword `k` occurs in the lower-cased message. */
  predicate Hits(message: string, k: nat)
    requires k < |Keywords|
  {
    Text.Contains(Text.Lower(message), Keywords[k])
  }

  /** The choice the keyword table makes: the first keyword that is a
      substring of the lower-cased message, else the default. */
  function Choose(message: string): (c: Choice)
    ensures c.Keyword? ==> c.k < |Keywords| && Hits(message, c.k)
    ensures c.Keyword? ==> forall j :: 0 <= j < c.k ==> !Hits(message, j)
    ensures c.Fallback? <==> forall j :: 0 <= j < |Keywords| ==> !Hits(message, j)
  {
    var lower := Text.Lower(message);
    match Query.FirstMatch(Keywords, (w: string) => Text.Contains(lower, w))
    case None => Fallback
    case Some(k) => assert Hits(message, k); Keyword(k)
  }

  /** The loop of `chat_endpoint`: try the keywords in order and stop at
      the first one the lower-cased message contains. */
  method SelectKeyword(message: string) returns (c: Choice)
    ensures c == Choose(message)
  {
    var lower := Text.Lower(message);
    c := Fallback;
    var i := 0;
    while i < |Keywords|
      invariant 0 <= i <= |Keywords|
      invariant forall j :: 0 <= j < i ==> !Hits(message, j)
    {
      if Text.Contains(lower, Keywords[i]) {
        assert Hits(message, i);
        c := Keyword(i);
        return;
      }
      i := i + 1;
    }
  }

  /** The text of a choice. */
  function ReplyText(c: Choice): string
    requires c.Keyword? ==> c.k < |Replies|
  {
    match c
    case Fallback => DefaultReply
    case Keyword(k) => Replies[k]
  }

  /** `chat_endpoint` (POST /chat): the text of the chosen reply, always
      reported as coming from the mock model. */
  method ChatEndpoint(message: string) returns (r: ChatResponse)
    ensures r.response == ReplyText(Choose(message))
    ensures r.modelUsed == MockModel
  {
    var c := SelectKeyword(message);
    r := ChatResponse(ReplyText(c), MockModel);
  }

  /** Matching ignores case: a message and its upper-cased form get the
      same reply. */
  lemma ChooseIgnoresCase(message: string)
    ensures Choose(Text.Upper(message)) == Choose(message)
  {
    Text.LowerOfUpper(message);
  }

  /** Keywords match inside words: "explain" holds "ai", so it gets the
      reply about artificial intelligence and not the default. */
  lemma ExplainChoosesAi()
    ensures Choose("explain") == Keyword(2)
  {
    var m := "explain";
    assert Text.Lower(m) == m;
    assert m[4] == 'a' && m[5] == 'i';
    assert m[4..6] == "ai";
    assert Text.OccursAt(m, "ai", 4);
    assert !Hits(m, 0) by {
      forall i | 0 <= i <= |m| ensures !Text.OccursAt(m, "hello", i) {
        if 0 <= i <= |m| - 5 { assert m[i..i + 5][0] != 'h'; }
      }
    }
    assert !Hits(m, 1) by {
      forall i | 0 <= i <= |m| ensures !Text.OccursAt(m, "quantum", i) {
        if i == 0 { assert m[0..7][0] != 'q'; }
      }
    }
  }

  /** The health probe's answer. */
  datatype Health = Health(status: string, service: string, mode: string, aiStatus: string)

  /** `health_check` (GET /health): a fixed report of a healthy service
      answering in development mode with mock replies. */
  function HealthCheck(): (h: Health)
    ensures h.status == "healthy" && h.service == "mad-scientist-ai-chat-local"
    ensures h.mode == "development" && h.aiStatus == "mock_responses"
  {
    Health("healthy", "mad-scientist-ai-chat-local", "development", "mock_responses")
  }
}

=== FILE: mad_scientist.dfy ===
/** The model catalogue of `mad_scientist.py`: the static table of AI
    models, the `<option>` lists built from it at import time, the
    lookups of the `MadScientist` class, and its session helpers. */
module MadScientist {
  import opened Maybe

  /** One catalogue entry (the `AI` record). */
  datatype Ai = Ai(model: string, description: string, mid: string, name: string, usage: string)

  /** The catalogue, in its declared order. */
  const Models: seq<Ai> := [
    Ai("Mad Sci Mistral-7B Instruct",
       MadSciDescription,
       "SavantofIllusions/mad_sci_mistral_instruct", "mad_sci_mistral_instruct", "text"),
    Ai("Mistral-7b Instruct",
       MistralDescription,
       "@cf/mistral/mistral-7b-instruct-v0.1", "mistral_7b_instruct", "mad-sci-text"),
    Ai("Hermes 2 Pro on Mistral 7B",
       HermesDescription,
       "@hf/nousresearch/hermes-2-pro-mistral-7b", "hermes_2_pro_on_mistral_7b", "text"),
    Ai("Dreamshaper-8 LCM",
       DreamshaperDescription,
       "@cf/lykon/dreamshaper-8-lcm", "dreamshaper_8_lcm", "art")
  ]

  const MadSciDescription: string :=
    "Mad Sci is a fine-tuned version of the Mistral-7b Instruct generative text model with 7 billion parameters"

  const MistralDescription: string :=
    "Instruct fine-tuned version of the Mistral-7b generative text model with 7 billion parameters"

  const HermesDescription: string :=
    "Hermes 2 Pro on Mistral 7B is the new flagship 7B Hermes! Hermes 2 Pro is an upgraded, retrained version of Nous Hermes 2, consisting of an updated and cleaned version of the OpenHermes 2.5 Dataset, as well as a newly introduced Function Calling and JSON Mode dataset developed in-house"

  const DreamshaperDescription: string :=
    "Stable Diffusion model that has been fine-tuned to be better at photorealism without sacrificing range"

  /** The `<option>` element for a display name. */
  function OptionTag(model: string): (o: string)
    ensures |o| == 26 + 2 * |model|
    ensures o[..15] == "<option value='" && o[15..15 + |model|] == model
    ensures o[15 + |model|..17 + |model|] == "'>" && o[17 + |model|..17 + 2 * |model|] == model
    ensures o[17 + 2 * |model|..] == "</option>"
  {
    "<option value='" + model + "'>" + model + "</option>"
  }

  /** Distinct display names give distinct option elements: the display
      name can be read back out of the markup. */
  lemma OptionTagInjective(a: string, b: string)
    ensures OptionTag(a) == OptionTag(b) <==> a == b
  {
    if OptionTag(a) == OptionTag(b) {
      assert |a| == |b|;
      assert a == OptionTag(a)[15..15 + |a|];
    }
  }

  /** The options of the entries with the given usage, as a left-to-right
      scan of the table produces them. */
  function OptionsFor(table: seq<Ai>, usage: string): (r: string)
  {
    if |table| == 0 then ""
    else
      var last := table[|table| - 1];
      OptionsFor(table[..|table| - 1], usage) + (if last.usage == usage then OptionTag(last.model) else "")
  }

  /** The options of a list of entries, joined in order. */
  function Tags(es: seq<Ai>): (r: string)
    ensures |es| == 0 ==> r == ""
  {
    if |es| == 0 then "" else OptionTag(es[0].model) + Tags(es[1..])
  }

  /** The entries with the given usage, in table order. */
  function WithUsage(table: seq<Ai>, usage: string): (r: seq<Ai>)
    ensures forall i :: 0 <= i < |r| ==> r[i].usage == usage && r[i] in table
    ensures forall j :: 0 <= j < |table| && table[j].usage == usage ==> table[j] in r
  {
    if |table| == 0 then []
    else (if table[0].usage == usage then [table[0]] else []) + WithUsage(table[1..], usage)
  }

  lemma {:induction false} TagsAppend(a: seq<Ai>, b: seq<Ai>)
    ensures Tags(a + b) == Tags(a) + Tags(b)
  {
    if |a| > 0 {
      assert (a + b)[1..] == a[1..] + b;
      TagsAppend(a[1..], b);
    } else {
      assert a + b == b;
    }
  }

  lemma {:induction false} WithUsageAppend(a: seq<Ai>, e: Ai, usage: string)
    ensures WithUsage(a + [e], usage) == WithUsage(a, usage) + (if e.usage == usage then [e] else [])
  {
    var tail := if e.usage == usage then [e] else [];
    if |a| > 0 {
      var head := if a[0].usage == usage then [a[0]] else [];
      assert (a + [e])[0] == a[0];
      assert (a + [e])[1..] == a[1..] + [e];
      WithUsageAppend(a[1..], e, usage);
      calc {
        WithUsage(a + [e], usage);
        head + WithUsage(a[1..] + [e], usage);
        head + (WithUsage(a[1..], usage) + tail);
        { assert head + (WithUsage(a[1..], usage) + tail) == (head + WithUsage(a[1..], usage)) + tail; }
        WithUsage(a, usage) + tail;
      }
    } else {
      assert a + [e] == [e];
      assert [e][1..] == [];
    }
  }

  /** The scan produces exactly the options of the entries with that
      usage, in table order. */
  lemma {:induction false} OptionsForIsFilter(table: seq<Ai>, usage: string)
    ensures OptionsFor(table, usage) == Tags(WithUsage(table, usage))
  {
    if |table| > 0 {
      var init, last := table[..|table| - 1], table[|table| - 1];
      assert table == init + [last];
      OptionsForIsFilter(init, usage);
      WithUsageAppend(init, last, usage);
      TagsAppend(WithUsage(init, usage), if last.usage == usage then [last] else []);
    }
  }

  /** The import-time loop: each entry's option goes to the brain list
      when its usage is 'mad-sci-text', else to the art list when it is
      'art', else nowhere. */
  method BuildOptions(table: seq<Ai>) returns (brain: string, art: string)
    ensures brain == Tags(WithUsage(table, "mad-sci-text"))
    ensures art == Tags(WithUsage(table, "art"))
  {
    brain, art := "", "";
    var i := 0;
    while i < |table|
      invariant 0 <= i <= |table|
      invariant brain == OptionsFor(table[..i], "mad-sci-text")
      invariant art == OptionsFor(table[..i], "art")
    {
      var e := table[i];
      var option := OptionTag(e.model);
      assert table[..i + 1][..i] == table[..i];
      if e.usage == "mad-sci-text" {
        brain := brain + option;
      } else if e.usage == "art" {
        art := art + option;
      }
      i := i + 1;
    }
    assert table[..i] == table;
    OptionsForIsFilter(table, "mad-sci-text");
    OptionsForIsFilter(table, "art");
  }

  /** For the shipped catalogue: one brain option, one art option, and the
      two 'text' entries in neither list. */
  lemma CatalogueOptions()
    ensures Tags(WithUsage(GetModels(), "mad-sci-text")) == OptionTag("Mistral-7b Instruct")
    ensures Tags(WithUsage(GetModels(), "art")) == OptionTag("Dreamshaper-8 LCM")
  {
    assert GetModels() == Models;
    var m := Models;
    assert m[0].usage == "text" && m[1].usage == "mad-sci-text" && m[2].usage == "text" && m[3].usage == "art";
    assert m[1..][1..][1..][1..] == [];
    assert WithUsage(m[3..], "mad-sci-text") == [] by { assert m[3..][1..] == []; }
    assert WithUsage(m[2..], "mad-sci-text") == [] by { assert m[2..][1..] == m[3..]; }
    assert WithUsage(m[1..], "mad-sci-text") == [m[1]] by { assert m[1..][1..] == m[2..]; }
    assert WithUsage(m, "mad-sci-text") == [m[1]];
    assert WithUsage(m[3..], "art") == [m[3]] by { assert m[3..][1..] == []; }
    assert WithUsage(m[2..], "art") == [m[3]] by { assert m[2..][1..] == m[3..]; }
    assert WithUsage(m[1..], "art") == [m[3]] by { assert m[1..][1..] == m[2..]; }
    assert WithUsage(m, "art") == [m[3]];
    assert Tags([m[1]]) == OptionTag(m[1].model) + Tags([]);
    assert Tags([m[3]]) == OptionTag(m[3].model) + Tags([]);
  }

  /** `get_models`: every entry, in table order. */
  function GetModels(): (r: seq<Ai>)
    ensures |r| == 4
    ensures forall i :: 0 <= i < |r| ==> r[i] == Models[i]
  {
    Models
  }

  /** What `get_model_by_name` returns: the entry, or the placeholder
      record that echoes the requested name. */
  datatype ModelLookup =
    | Found(entry: Ai)
    | NotFoundRecord(model: string, description: string, recordId: string, name: string)

  /** `get_model_by_name`: the first entry whose `name` matches. */
  function GetModelByName(table: seq<Ai>, name: string): (r: ModelLookup)
    ensures r.Found? ==> r.entry in table && r.entry.name == name
    ensures r.Found? <==> exists i :: 0 <= i < |table| && table[i].name == name
    ensures r.NotFoundRecord? ==>
              r == NotFoundRecord(name, "Model Not Found", "model_not_found", name)
  {
    if |table| == 0 then NotFoundRecord(name, "Model Not Found", "model_not_found", name)
    else if table[0].name == name then Found(table[0])
    else
      var r := GetModelByName(table[1..], name);
      if r.Found? then r
      else
        assert forall i :: 1 <= i < |table| ==> table[i] == table[1..][i - 1];
        r
  }

  /** `get_mid_by_model_name`: the `mid` of the first entry with that
      `name`, `None` when there is none. */
  function GetMidByModelName(table: seq<Ai>, name: string): (r: Option<string>)
    ensures r.None? <==> forall i :: 0 <= i < |table| ==> table[i].name != name
    ensures r.Some? ==> exists i :: 0 <= i < |table| && table[i].name == name && r.value == table[i].mid
  {
    if |table| == 0 then None
    else if table[0].name == name then Some(table[0].mid)
    else
      var r := GetMidByModelName(table[1..], name);
      assert forall i :: 1 <= i < |table| ==> table[i] == table[1..][i - 1];
      r
  }

  /** `get_model_name_by_model`: the `name` of the first entry with that
      display name, `None` when there is none. */
  function GetModelNameByModel(table: seq<Ai>, model: string): (r: Option<string>)
    ensures r.None? <==> forall i :: 0 <= i < |table| ==> table[i].model != model
    ensures r.Some? ==> exists i :: 0 <= i < |table| && table[i].model == model && r.value == table[i].name
  {
    if |table| == 0 then None
    else if table[0].model == model then Some(table[0].name)
    else
      var r := GetModelNameByModel(table[1..], model);
      assert forall i :: 1 <= i < |table| ==> table[i] == table[1..][i - 1];
      r
  }

  /** Display names and names each identify one entry. */
  predicate UniqueKeys(table: seq<Ai>) {
    && (forall i, j :: 0 <= i < j < |table| ==> table[i].model != table[j].model)
    && (forall i, j :: 0 <= i < j < |table| ==> table[i].name != table[j].name)
  }

  /** The keys of the shipped table, compared through their lengths. */
  lemma ModelsUnique()
    ensures UniqueKeys(Models)
  {
    var lengths := [(27, 24), (19, 19), (26, 26), (17, 17)];
    assert forall i :: 0 <= i < 4 ==> (|Models[i].model|, |Models[i].name|) == lengths[i];
  }

  /** The catalogue `get_models` serves has unique display names and
      unique names, so every lookup by either key is unambiguous. */
  lemma CatalogueUnique()
    ensures UniqueKeys(GetModels())
  {
    assert GetModels() == Models;
    ModelsUnique();
  }

  /** In a table with unique keys, going from an entry's display name to
      its name and from that name to a `mid` lands on the entry's `mid`. */
  lemma MidOfModelRoundTrip(table: seq<Ai>, k: nat)
    requires UniqueKeys(table) && k < |table|
    ensures GetModelNameByModel(table, table[k].model) == Some(table[k].name)
    ensures GetMidByModelName(table, table[k].name) == Some(table[k].mid)
  {
    var n := GetModelNameByModel(table, table[k].model);
    var i :| 0 <= i < |table| && table[i].model == table[k].model && n.value == table[i].name;
    assert i == k;
    var m := GetMidByModelName(table, table[k].name);
    var j :| 0 <= j < |table| && table[j].name == table[k].name && m.value == table[j].mid;
    assert j == k;
  }

  /** A request's session as Starlette exposes it: `request.session` is a
      dict when the session middleware is installed, and reading it
      otherwise fails an assertion. It is never `None`. */
  datatype SessionStore<V> = NotInstalled | Installed(data: map<string, V>)

  /** `set_session`, on the session of the request the instance was built
      with (the `request` argument is not read): store the value under the
      key. The `None` test always passes, so its HTTP 500 branch is never
      taken; a missing middleware fails the assertion instead. */
  function SetSession<V>(session: SessionStore<V>, variable: string, data: V): (r: Result<map<string, V>>)
    ensures session.NotInstalled? <==> r == Raised(AssertionError)
    ensures r.Ok? ==> variable in r.value && r.value[variable] == data
    ensures r.Ok? ==> forall k :: k in session.data && k != variable ==> k in r.value && r.value[k] == session.data[k]
    ensures r.Ok? ==> r.value.Keys == session.data.Keys + {variable}
  {
    match session
    case NotInstalled => Raised(AssertionError)
    case Installed(m) => Ok(m[variable := data])
  }

  /** `get_session`, on the instance's request: the stored value, `None`
      for a missing key. */
  function GetSession<V>(session: SessionStore<V>, variable: string): (r: Result<Option<V>>)
    ensures session.NotInstalled? <==> r == Raised(AssertionError)
    ensures r.Ok? ==> (r.value.Some? <==> variable in session.data)
    ensures r.Ok? && r.value.Some? ==> r.value.value == session.data[variable]
  {
    match session
    case NotInstalled => Raised(AssertionError)
    case Installed(m) => if variable in m then Ok(Some(m[variable])) else Ok(None)
  }

  /** `clear_session`, on the session of its `request` argument: empty it. */
  function ClearSession<V>(session: SessionStore<V>): (r: Result<map<string, V>>)
    ensures session.NotInstalled? <==> r == Raised(AssertionError)
    ensures r.Ok? ==> |r.value| == 0
  {
    match session
    case NotInstalled => Raised(AssertionError)
    case Installed(_) => Ok(map[])
  }

  /** Reading a key back gives the last value set under it, and setting
      one key leaves the others readable as before. */
  lemma GetAfterSet<V>(m: map<string, V>, variable: string, data: V, other: string)
    requires other != variable
    ensures GetSession(Installed(SetSession(Installed(m), variable, data).value), variable) == Ok(Some(data))
    ensures GetSession(Installed(SetSession(Installed(m), variable, data).value), other)
            == GetSession(Installed(m), other)
  {
  }

  /** After clearing, no key is found. */
  lemma GetAfterClear<V>(m: map<string, V>, variable: string)
    ensures GetSession(Installed(ClearSession(Installed(m)).value), variable) == Ok(None)
  {
  }
}

=== FILE: maybe.dfy ===
/** Values the Python code passes around besides plain data: `None`, and
    the exceptions a request handler can raise instead of returning. */
module Maybe {

  /** Python's `None` versus a present value. */
  datatype Option<+T> = None | Some(value: T)

  /** The exceptions the modelled code can end up raising. */
  datatype PyError =
    | AttributeError     // attribute read or write on `False`, a response or a dict
    | NameError          // a name the module never defines or imports
    | UnboundLocalError  // a local read before any assignment
    | BuildError         // `url_for` on an endpoint that does not exist
    | MailError          // `mail.send` failed with anything but a TypeError
    | IntegrityError     // a unique constraint rejected a flush
    | NotFoundAbort      // `get_or_404` found no row
    | TypeError          // an operation applied to a value of the wrong type
    | AssertionError     // a failed `assert`, such as Starlette's for a missing session middleware

  /** A computation that either returns a value or raises. */
  datatype Result<+T> = Ok(value: T) | Raised(error: PyError)
}

=== FILE: model_properties.dfy ===
/** Properties of the verification-token primitives of `models.py` that
    relate several calls. */
module ModelProperties {
  import opened Maybe
  import opened Models

  /** Issuing a token leaves every earlier token exactly as redeemable as
      it was: nothing is invalidated. */
  lemma {:induction false} GenerateKeepsEarlierTokens(db: Db, userId: nat, value: string, now: int,
                                                      owner: nat, other: string, at: int)
    requires UniqueTokens(db.tokens)
    requires GenerateVerificationToken(db, userId, value, now).Ok?
    requires other != value
    ensures var db' := GenerateVerificationToken(db, userId, value, now).value;
            CheckVerificationToken(db', owner, other, at) == CheckVerificationToken(db, owner, other, at)
  {
    var db' := GenerateVerificationToken(db, userId, value, now).value;
    var n := |db.tokens|;
    assert UniqueTokens(db'.tokens) by {
      forall i, j | 0 <= i < j < |db'.tokens| ensures db'.tokens[i].token != db'.tokens[j].token {
        if j < n {
          assert db'.tokens[i] == db.tokens[i] && db'.tokens[j] == db.tokens[j];
        } else {
          assert db'.tokens[i] == db.tokens[i];
        }
      }
    }
    if CheckVerificationToken(db, owner, other, at) {
      var i :| 0 <= i < n && Redeemable(db.tokens[i], owner, other, at);
      assert db'.tokens[i] == db.tokens[i];
    }
    if CheckVerificationToken(db', owner, other, at) {
      var i :| 0 <= i < |db'.tokens| && Redeemable(db'.tokens[i], owner, other, at);
      assert i < n;
      assert db'.tokens[i] == db.tokens[i];
    }
  }

  /** When the clock has moved past every earlier token of the user, the
      token just issued is the one `get_active_verification_token` returns. */
  lemma {:induction false} GenerateThenActive(db: Db, userId: nat, value: string, now: int)
    requires GenerateVerificationToken(db, userId, value, now).Ok?
    requires forall i :: 0 <= i < |db.tokens| && db.tokens[i].userId == userId ==> db.tokens[i].createdAt < now
    ensures var db' := GenerateVerificationToken(db, userId, value, now).value;
            GetActiveVerificationToken(db'.tokens, userId) == Some(db'.tokens[|db.tokens|])
  {
    var db' := GenerateVerificationToken(db, userId, value, now).value;
    assert db'.tokens[..|db'.tokens| - 1] == db.tokens;
  }

  /** The corrected `use_verification_token` succeeds at most once per
      token value: the second call, at any time, returns false. */
  lemma {:induction false} CorrectedUseIsSingleUse(db: Db, userId: nat, value: string, now: int, later: int)
    requires UniqueTokens(db.tokens)
    ensures var r := UseVerificationTokenCorrected(db, userId, value, now);
            r.1 ==> !UseVerificationTokenCorrected(r.0, userId, value, later).1
  {
    var r := UseVerificationTokenCorrected(db, userId, value, now);
    if r.1 {
      var k :| 0 <= k < |db.tokens| && Redeemable(db.tokens[k], userId, value, now) && r.0 == MarkUsed(db, k);
      forall j | 0 <= j < |r.0.tokens| ensures !UnusedMatch(r.0.tokens[j], userId, value) {
        if j != k {
          assert r.0.tokens[j] == db.tokens[j];
        }
      }
    }
  }

  /** With only the expiry test repaired and a single token on the
      account, the relationship's token is the checked one, so use is
      single use as well. */
  lemma {:induction false} UseSingleTokenOnce(db: Db, userId: nat, value: string, now: int, later: int)
    requires UniqueTokens(db.tokens)
    requires forall i, j :: (0 <= i < |db.tokens| && 0 <= j < |db.tokens| && db.tokens[i].userId == userId
                             && db.tokens[j].userId == userId) ==> i == j
    ensures var r := UseVerificationTokenExpiryFixed(db, userId, value, now);
            r.1 ==> !UseVerificationTokenExpiryFixed(r.0, userId, value, later).1
  {
    var r := UseVerificationTokenExpiryFixed(db, userId, value, now);
    if r.1 {
      var k := BackrefToken(db.tokens, userId).value;
      forall j | 0 <= j < |r.0.tokens| ensures !UnusedMatch(r.0.tokens[j], userId, value) {
        if j != k {
          assert r.0.tokens[j] == db.tokens[j];
        }
      }
    }
  }

  /** With only the expiry test repaired, two tokens on one account:
      using the newer one marks the older one, so the newer one can be
      used again and again. */
  lemma UseTokenReplay()
    ensures var db := Db([], [VerificationToken(1, 1, "older", 0, false),
                              VerificationToken(2, 1, "newer", 10, false)]);
            var first := UseVerificationTokenExpiryFixed(db, 1, "newer", 20);
            first.1 && UseVerificationTokenExpiryFixed(first.0, 1, "newer", 30).1
  {
    var db := Db([], [VerificationToken(1, 1, "older", 0, false),
                      VerificationToken(2, 1, "newer", 10, false)]);
    assert Redeemable(db.tokens[1], 1, "newer", 20);
    var first := UseVerificationTokenExpiryFixed(db, 1, "newer", 20);
    assert BackrefToken(db.tokens, 1) == Some(0);
    assert first.0.tokens[1] == db.tokens[1];
    assert Redeemable(first.0.tokens[1], 1, "newer", 30);
  }
}

=== FILE: models.dfy ===
/** The persistent records of `models.py`: the `user` and
    `verification_token` tables, werkzeug password hashing (abstract),
    token expiry and single use, and the `UserSchema` dump. */
module Models {
  import opened Maybe
  import Query

  /** A werkzeug hash string: the random salt and the salted digest. */
  datatype PasswordHash = PasswordHash(salt: string, digest: string)

  /** The keyed hash werkzeug uses, left abstract: (salt, password) to digest. */
  type Hasher = (string, string) -> string

  /** `generate_password_hash(password)` with the salt it drew. */
  function GeneratePasswordHash(hasher: Hasher, salt: string, password: string): (h: PasswordHash)
    ensures h.salt == salt
    ensures CheckPasswordHash(hasher, h, password)
  {
    PasswordHash(salt, hasher(salt, password))
  }

  /** `check_password_hash(h, password)`: rehash with the stored salt. */
  predicate CheckPasswordHash(hasher: Hasher, h: PasswordHash, password: string) {
    hasher(h.salt, password) == h.digest
  }

  /** A row of the `user` table. Times are seconds on the server clock. */
  datatype User = User(
    id: nat,
    username: string,
    email: Option<string>,
    passwordHash: PasswordHash,
    shortcode: Option<string>,
    isAdmin: bool,
    isActive: bool,
    isVerified: bool,
    createdAt: int,
    lastLogin: int,
    currentAuthTime: int,
    authLinkRoute: Option<string>,
    token: Option<string>)

  /** A row of the `verification_token` table. */
  datatype VerificationToken = VerificationToken(
    id: nat,
    userId: nat,
    token: string,
    createdAt: int,
    isUsed: bool)

  /** The database: both tables, rows in insertion (rowid) order. */
  datatype Db = Db(users: seq<User>, tokens: seq<VerificationToken>)

  /** `User.set_password`: only the hash changes. */
  function SetPassword(u: User, hasher: Hasher, salt: string, password: string): (u': User)
    ensures CheckPassword(hasher, u', password)
    ensures u' == u.(passwordHash := u'.passwordHash)
  {
    u.(passwordHash := GeneratePasswordHash(hasher, salt, password))
  }

  /** `User.check_password`. */
  predicate CheckPassword(hasher: Hasher, u: User, password: string) {
    CheckPasswordHash(hasher, u.passwordHash, password)
  }

  /** `User(username=..., password=...)` as inserted with row id `id` at
      time `now`: the constructor sets the name and the hash, the column
      defaults give everything else. */
  function NewUser(id: nat, username: string, password: string, hasher: Hasher, salt: string, now: int): (u: User)
    ensures u.id == id && u.username == username
    ensures CheckPassword(hasher, u, password)
    ensures u.email.None? && u.shortcode.None? && u.authLinkRoute.None? && u.token.None?
    ensures !u.isAdmin && !u.isActive && !u.isVerified
    ensures u.createdAt == now && u.lastLogin == now && u.currentAuthTime == now
  {
    var blank := User(id, username, None, PasswordHash("", ""), None, false, false, false,
                      now, now, now, None, None);
    SetPassword(blank, hasher, salt, password)
  }

  /** The unique constraints of both tables, and row ids that follow
      insertion order (rows are never deleted). */
  predicate Valid(db: Db) {
    && (forall i :: 0 <= i < |db.users| ==> db.users[i].id == i + 1)
    && (forall i, j :: 0 <= i < j < |db.users| ==> db.users[i].username != db.users[j].username)
    && (forall i, j :: 0 <= i < j < |db.users| && db.users[i].email.Some? ==>
          db.users[i].email != db.users[j].email)
    && (forall i :: 0 <= i < |db.tokens| ==> db.tokens[i].id == i + 1)
    && (forall i :: 0 <= i < |db.tokens| ==> 1 <= db.tokens[i].userId <= |db.users|)
    && UniqueTokens(db.tokens)
  }

  predicate UniqueTokens(tokens: seq<VerificationToken>) {
    forall i, j :: 0 <= i < j < |tokens| ==> tokens[i].token != tokens[j].token
  }

  /** `User.query.filter_by(username=name).first()`. */
  function FindByUsername(users: seq<User>, name: string): (r: Option<nat>)
    ensures r.Some? ==> r.value < |users| && users[r.value].username == name
    ensures r.None? <==> forall j :: 0 <= j < |users| ==> users[j].username != name
  {
    Query.FirstMatch(users, (u: User) => u.username == name)
  }

  /** `User.query.filter_by(email=e).first()`. */
  function FindByEmail(users: seq<User>, e: string): (r: Option<nat>)
    ensures r.Some? ==> r.value < |users| && users[r.value].email == Some(e)
    ensures r.None? <==> forall j :: 0 <= j < |users| ==> users[j].email != Some(e)
  {
    Query.FirstMatch(users, (u: User) => u.email == Some(e))
  }

  /** `User.query.get(id)`. */
  function FindById(users: seq<User>, id: int): (r: Option<nat>)
    ensures r.Some? ==> r.value < |users| && users[r.value].id == id
    ensures r.None? <==> forall j :: 0 <= j < |users| ==> users[j].id != id
  {
    Query.FirstMatch(users, (u: User) => u.id == id)
  }

  /** Replace row `i` and commit. */
  function UpdateUser(db: Db, i: nat, u: User): (db': Db)
    requires i < |db.users|
    ensures |db'.users| == |db.users| && db'.users[i] == u && db'.tokens == db.tokens
    ensures forall j :: 0 <= j < |db.users| && j != i ==> db'.users[j] == db.users[j]
  {
    db.(users := db.users[i := u])
  }

  /** Rewriting one row keeps the constraints when its id and username
      stay and its e-mail is either unchanged, cleared, or held by no other row. */
  lemma UpdateUserKeepsValid(db: Db, i: nat, u: User)
    requires Valid(db) && i < |db.users|
    requires u.id == db.users[i].id && u.username == db.users[i].username
    requires u.email == db.users[i].email || u.email.None?
             || forall j :: 0 <= j < |db.users| && j != i ==> db.users[j].email != u.email
    ensures Valid(UpdateUser(db, i, u))
  {
  }

  // ---------------------------------------------------------------------
  // Verification tokens
  // ---------------------------------------------------------------------

  /** `is_expired`'s window: one hour. */
  const TokenLifetimeSeconds: int := 3600

  /** `VerificationToken.is_expired` as written: the module imports the
      class `datetime`, so `datetime.datetime` is an attribute lookup on
      the class that fails before any time is compared. */
  function IsExpiredAsWritten(t: VerificationToken, now: int): (r: Result<bool>)
    ensures r == Raised(AttributeError)
  {
    Raised(AttributeError)
  }

  /** `is_expired` with the clock call it evidently means: strictly after
      creation plus the lifetime. */
  predicate IsExpired(t: VerificationToken, now: int) {
    now > t.createdAt + TokenLifetimeSeconds
  }

  /** A token is still good at the very end of its hour, stops being good
      one second later, and once expired stays expired. */
  lemma ExpiryBoundary(t: VerificationToken, now: int, later: int)
    ensures !IsExpired(t, t.createdAt + TokenLifetimeSeconds)
    ensures IsExpired(t, t.createdAt + TokenLifetimeSeconds + 1)
    ensures IsExpired(t, now) && now <= later ==> IsExpired(t, later)
  {
  }

  /** Token `t` is `userId`'s, carries `value`, and has not been used. */
  predicate UnusedMatch(t: VerificationToken, userId: nat, value: string) {
    t.userId == userId && t.token == value && !t.isUsed
  }

  /** `UnusedMatch`, and not expired at `now`. */
  predicate Redeemable(t: VerificationToken, userId: nat, value: string, now: int) {
    UnusedMatch(t, userId, value) && !IsExpired(t, now)
  }

  /** The first row the query in `check_verification_token` returns. */
  function FirstUnusedMatch(tokens: seq<VerificationToken>, userId: nat, value: string): (r: Option<nat>)
    ensures r.Some? ==> r.value < |tokens| && UnusedMatch(tokens[r.value], userId, value)
    ensures r.Some? ==> forall j :: 0 <= j < r.value ==> !UnusedMatch(tokens[j], userId, value)
    ensures r.None? <==> forall j :: 0 <= j < |tokens| ==> !UnusedMatch(tokens[j], userId, value)
  {
    Query.FirstMatch(tokens, (t: VerificationToken) => UnusedMatch(t, userId, value))
  }

  /** `User.check_verification_token` as written: whenever the query finds
      a row, `is_expired` raises. */
  function CheckVerificationTokenAsWritten(db: Db, userId: nat, value: string, now: int): (r: Result<bool>)
    ensures r.Raised? <==> exists i :: 0 <= i < |db.tokens| && UnusedMatch(db.tokens[i], userId, value)
    ensures r.Ok? ==> r == Ok(false)
  {
    match FirstUnusedMatch(db.tokens, userId, value)
    case None => Ok(false)
    case Some(i) =>
      match IsExpiredAsWritten(db.tokens[i], now)
      case Raised(e) => Raised(e)
      case Ok(expired) => Ok(!expired)
  }

  /** `User.check_verification_token` with the corrected expiry test: true
      when the user holds an unused, unexpired token carrying `value`. */
  function CheckVerificationToken(db: Db, userId: nat, value: string, now: int): (ok: bool)
    ensures ok ==> exists i :: 0 <= i < |db.tokens| && Redeemable(db.tokens[i], userId, value, now)
    ensures UniqueTokens(db.tokens) ==>
              (ok <==> exists i :: 0 <= i < |db.tokens| && Redeemable(db.tokens[i], userId, value, now))
  {
    match FirstUnusedMatch(db.tokens, userId, value)
    case None => false
    case Some(i) => !IsExpired(db.tokens[i], now)
  }

  /** `generate_verification_token`: a new unused row with a fresh random
      value; a value already in the table fails the unique constraint. */
  function GenerateVerificationToken(db: Db, userId: nat, value: string, now: int): (r: Result<Db>)
    ensures r.Raised? <==> exists i :: 0 <= i < |db.tokens| && db.tokens[i].token == value
    ensures r.Raised? ==> r.error == IntegrityError
    ensures r.Ok? ==> r.value.users == db.users
    ensures r.Ok? ==> |r.value.tokens| == |db.tokens| + 1 && r.value.tokens[..|db.tokens|] == db.tokens
    ensures r.Ok? ==> var t := r.value.tokens[|db.tokens|];
              t.userId == userId && t.token == value && t.createdAt == now && !t.isUsed
  {
    if exists i :: 0 <= i < |db.tokens| && db.tokens[i].token == value then Raised(IntegrityError)
    else Ok(db.(tokens := db.tokens + [VerificationToken(|db.tokens| + 1, userId, value, now, false)]))
  }

  /** `get_active_verification_token`: an unused token of the user with the
      latest creation time (the query orders by `created_at` only, so among
      equal times any may come back; this one takes the last inserted). */
  function GetActiveVerificationToken(tokens: seq<VerificationToken>, userId: nat): (r: Option<VerificationToken>)
    ensures r.None? <==> forall i :: 0 <= i < |tokens| ==> tokens[i].userId != userId || tokens[i].isUsed
    ensures r.Some? ==> r.value in tokens && r.value.userId == userId && !r.value.isUsed
    ensures r.Some? ==> forall i :: 0 <= i < |tokens| && tokens[i].userId == userId && !tokens[i].isUsed ==>
                          tokens[i].createdAt <= r.value.createdAt
  {
    if |tokens| == 0 then None
    else
      var rest := GetActiveVerificationToken(tokens[..|tokens| - 1], userId);
      var t := tokens[|tokens| - 1];
      if t.userId == userId && !t.isUsed && (rest.None? || rest.value.createdAt <= t.createdAt) then Some(t)
      else rest
  }

  /** The row `self.verification_token` loads: the relationship is declared
      with `uselist=False`, so it is the first of the user's tokens. */
  function BackrefToken(tokens: seq<VerificationToken>, userId: nat): (r: Option<nat>)
    ensures r.Some? ==> r.value < |tokens| && tokens[r.value].userId == userId
    ensures r.Some? ==> forall j :: 0 <= j < r.value ==> tokens[j].userId != userId
    ensures r.None? <==> forall j :: 0 <= j < |tokens| ==> tokens[j].userId != userId
  {
    Query.FirstMatch(tokens, (t: VerificationToken) => t.userId == userId)
  }

  /** Mark token `k` used. */
  function MarkUsed(db: Db, k: nat): (db': Db)
    requires k < |db.tokens|
    ensures db'.users == db.users && |db'.tokens| == |db.tokens|
    ensures db'.tokens[k].isUsed && db'.tokens[k] == db.tokens[k].(isUsed := true)
    ensures forall j :: 0 <= j < |db.tokens| && j != k ==> db'.tokens[j] == db.tokens[j]
  {
    db.(tokens := db.tokens[k := db.tokens[k].(isUsed := true)])
  }

  /** `use_verification_token` as written: it calls the check first, so
      whenever the user holds an unused token carrying `value` the expiry
      test raises and nothing is marked or committed; otherwise the check
      returns false and so does the call. */
  function UseVerificationTokenAsWritten(db: Db, userId: nat, value: string, now: int): (r: Result<(Db, bool)>)
    ensures r.Raised? <==> exists i :: 0 <= i < |db.tokens| && UnusedMatch(db.tokens[i], userId, value)
    ensures r.Raised? ==> r.error == CheckVerificationTokenAsWritten(db, userId, value, now).error
    ensures r.Ok? ==> r.value == (db, false)
  {
    match CheckVerificationTokenAsWritten(db, userId, value, now)
    case Raised(e) => Raised(e)
    case Ok(_) => Ok((db, false))   // the check as written never answers true
  }

  /** `use_verification_token` with only the expiry test repaired: returns
      what the check returns, and on success marks the relationship's
      token, which is the user's first token, not necessarily the one
      that was checked. */
  function UseVerificationTokenExpiryFixed(db: Db, userId: nat, value: string, now: int): (r: (Db, bool))
    ensures r.1 == CheckVerificationToken(db, userId, value, now)
    ensures !r.1 ==> r.0 == db
    ensures r.1 ==> (BackrefToken(db.tokens, userId).Some?
                     && r.0 == MarkUsed(db, BackrefToken(db.tokens, userId).value))
  {
    if !CheckVerificationToken(db, userId, value, now) then (db, false)
    else match BackrefToken(db.tokens, userId)
      case Some(k) => (MarkUsed(db, k), true)
      case None => (db, true)
  }

  /** `use_verification_token` marking the token it checked. */
  function UseVerificationTokenCorrected(db: Db, userId: nat, value: string, now: int): (r: (Db, bool))
    ensures r.1 == CheckVerificationToken(db, userId, value, now)
    ensures !r.1 ==> r.0 == db
    ensures r.1 ==> exists k :: (0 <= k < |db.tokens| && Redeemable(db.tokens[k], userId, value, now)
                                  && r.0 == MarkUsed(db, k))
  {
    match FirstUnusedMatch(db.tokens, userId, value)
    case None => (db, false)
    case Some(k) => if IsExpired(db.tokens[k], now) then (db, false) else (MarkUsed(db, k), true)
  }

  // ---------------------------------------------------------------------
  // UserSchema
  // ---------------------------------------------------------------------

  /** What `UserSchema().dump(user)` contains: every column except
      `password_hash` and `email`, plus the id of the related token. */
  datatype UserDump = UserDump(
    id: nat,
    username: string,
    shortcode: Option<string>,
    isAdmin: bool,
    isActive: bool,
    isVerified: bool,
    createdAt: int,
    lastLogin: int,
    currentAuthTime: int,
    authLinkRoute: Option<string>,
    token: Option<string>,
    verificationToken: Option<nat>)

  function DumpUser(db: Db, u: User): (d: UserDump)
    ensures d.id == u.id && d.username == u.username
    ensures BackrefToken(db.tokens, u.id).Some? <==> d.verificationToken.Some?
  {
    var related := match BackrefToken(db.tokens, u.id)
      case None => None
      case Some(k) => Some(db.tokens[k].id);
    UserDump(u.id, u.username, u.shortcode, u.isAdmin, u.isActive, u.isVerified,
             u.createdAt, u.lastLogin, u.currentAuthTime, u.authLinkRoute, u.token, related)
  }

  /** The dump carries no information about the password hash or the
      e-mail address, and all the rest: two rows dump alike exactly when
      they differ at most in those two columns. */
  lemma DumpExcludesSecrets(db: Db, u: User, v: User)
    ensures DumpUser(db, u) == DumpUser(db, v) <==>
              u.(passwordHash := v.passwordHash, email := v.email) == v
  {
  }
}

=== FILE: query.dfy ===
/** The SQLAlchemy query shape the handlers use on a table held as a
    sequence of rows in insertion (rowid) order: `filter_by(...).first()`. */
module Query {
  import opened Maybe

  /** Index of the first row satisfying `p`, as `.first()` returns it. */
  function FirstMatch<T>(rows: seq<T>, p: T -> bool): (r: Option<nat>)
    ensures r.Some? ==> r.value < |rows| && p(rows[r.value])
    ensures r.Some? ==> forall j :: 0 <= j < r.value ==> !p(rows[j])
    ensures r.None? <==> forall j :: 0 <= j < |rows| ==> !p(rows[j])
  {
    if |rows| == 0 then None
    else if p(rows[0]) then Some(0)
    else match FirstMatch(rows[1..], p)
      case None => None
      case Some(k) => Some(k + 1)
  }
}

=== FILE: sqlite.dfy ===
/** How SQLite reads text compared against an INTEGER column: the bound
    text has no affinity, so the column's numeric affinity applies to it,
    and text that spells a number compares as that number. Only the
    integral values matter here, since the keys compared with are row ids. */
module Sqlite {
  import opened Maybe
  import Text

  /** The characters SQLite skips around numeric text. */
  predicate IsSpace(c: char) {
    c == ' ' || c == '\t' || c == '\n' || c == '\r' || c == '\U{000B}' || c == '\U{000C}'
  }

  /** The text without its leading and trailing white space. */
  function Trim(s: string): (t: string)
    ensures |t| <= |s|
    ensures |t| > 0 ==> !IsSpace(t[0]) && !IsSpace(t[|t| - 1])
    ensures (|s| == 0 || (!IsSpace(s[0]) && !IsSpace(s[|s| - 1]))) ==> t == s
  {
    if |s| > 0 && IsSpace(s[0]) then Trim(s[1..])
    else if |s| > 0 && IsSpace(s[|s| - 1]) then Trim(s[..|s| - 1])
    else s
  }

  /** The length of the longest run of decimal digits `s` starts with. */
  function DigitRun(s: string): (n: nat)
    ensures n <= |s|
    ensures Text.IsDigits(s[..n])
    ensures n < |s| ==> !Text.IsDigit(s[n])
  {
    if |s| == 0 || !Text.IsDigit(s[0]) then 0
    else
      var n := 1 + DigitRun(s[1..]);
      assert s[..n] == [s[0]] + s[1..][..n - 1];
      n
  }

  function Signed(negative: bool, v: nat): int {
    if negative then -(v as int) else v
  }

  /** A number SQLite reads from text, as mantissa times ten to the scale. */
  datatype Numeric = Numeric(mantissa: int, scale: int)

  /** The exponent part after the mantissa: nothing, or `e`/`E`, an
      optional sign and at least one digit. */
  function ParseExponent(s: string): (r: Option<int>)
    ensures |s| == 0 ==> r == Some(0)
    ensures |s| > 0 && s[0] != 'e' && s[0] != 'E' ==> r.None?
  {
    if |s| == 0 then Some(0)
    else if s[0] != 'e' && s[0] != 'E' then None
    else
      var e := s[1..];
      var signLen := if |e| > 0 && (e[0] == '-' || e[0] == '+') then 1 else 0;
      var digits := e[signLen..];
      if |digits| == 0 || !Text.IsDigits(digits) then None
      else Some(Signed(signLen == 1 && e[0] == '-', Text.ParseDigits(digits)))
  }

  /** SQLite's test for a well-formed numeric literal (`sqlite3AtoF`):
      optional white space, an optional sign, digits with at most one
      decimal point and at least one digit in all, an optional exponent,
      then nothing but white space. */
  function ParseNumeric(text: string): (r: Option<Numeric>)
  {
    var t := Trim(text);
    if |t| > 0 && (t[0] == '-' || t[0] == '+') then
      match ParseUnsigned(t[1..])
      case None => None
      case Some(n) => Some(if t[0] == '-' then n.(mantissa := -n.mantissa) else n)
    else ParseUnsigned(t)
  }

  /** The literal after the sign: the integer digits, then the rest. */
  function ParseUnsigned(u: string): (r: Option<Numeric>)
    ensures r.Some? ==> r.value.mantissa >= 0
  {
    var n := DigitRun(u);
    ParseFraction(u[..n], u[n..])
  }

  /** After the integer digits: an optional point and fraction digits. */
  function ParseFraction(whole: string, rest: string): (r: Option<Numeric>)
    requires Text.IsDigits(whole)
    ensures r.Some? ==> r.value.mantissa >= 0
  {
    if |rest| > 0 && rest[0] == '.' then
      var n := DigitRun(rest[1..]);
      Finish(whole, rest[1..][..n], rest[1..][n..])
    else Finish(whole, "", rest)
  }

  /** The digits on both sides of the point, then the exponent part. */
  function Finish(whole: string, fraction: string, tail: string): (r: Option<Numeric>)
    requires Text.IsDigits(whole) && Text.IsDigits(fraction)
    ensures r.Some? ==> r.value.mantissa >= 0
  {
    if |whole| + |fraction| == 0 then None
    else
      match ParseExponent(tail)
      case None => None
      case Some(x) =>
        assert Text.IsDigits(whole + fraction) by {
          assert forall i :: 0 <= i < |whole + fraction| ==>
            (whole + fraction)[i] == if i < |whole| then whole[i] else fraction[i - |whole|];
        }
        Some(Numeric(Text.ParseDigits(whole + fraction), x - |fraction|))
  }

  /** The integer the text compares equal to, when it reads as a number
      with no fractional part. */
  function IntegerValue(text: string): (r: Option<int>)
    ensures r.Some? ==> ParseNumeric(text).Some?
    ensures r.Some? ==>
              var n := ParseNumeric(text).value;
              if n.scale >= 0 then r.value == n.mantissa * Text.Pow10(n.scale)
              else r.value * Text.Pow10(-n.scale) == n.mantissa
  {
    match ParseNumeric(text)
    case None => None
    case Some(n) =>
      if n.scale >= 0 then Some(n.mantissa * Text.Pow10(n.scale))
      else if n.mantissa % Text.Pow10(-n.scale) == 0 then
        ExactQuotient(n.mantissa, Text.Pow10(-n.scale));
        Some(n.mantissa / Text.Pow10(-n.scale))
      else None
  }

  lemma ExactQuotient(m: int, p: int)
    requires p > 0 && m % p == 0
    ensures (m / p) * p == m
  {
  }

  /** Plain decimal text reads as the number it spells. */
  lemma IntegerValueOfDigits(text: string)
    requires |text| > 0 && Text.IsDigits(text)
    ensures IntegerValue(text) == Some(Text.ParseDigits(text))
  {
    assert Trim(text) == text;
    assert ParseNumeric(text) == ParseUnsigned(text) by {
      assert Text.IsDigit(text[0]);
    }
    DigitRunAll(text);
    assert ParseUnsigned(text) == ParseFraction(text, "") by {
      assert text[..|text|] == text && text[|text|..] == [];
    }
    assert ParseFraction(text, "") == Finish(text, "", "");
    assert Finish(text, "", "") == Some(Numeric(Text.ParseDigits(text), 0)) by {
      assert text + "" == text;
    }
  }

  lemma {:induction false} DigitRunAll(s: string)
    requires Text.IsDigits(s)
    ensures DigitRun(s) == |s|
  {
    if |s| > 0 {
      DigitRunAll(s[1..]);
    }
  }

  /** Text that is not plain decimal still reads as an integer: a point
      followed by zeros, an exponent, or a sign with white space around. */
  lemma PointZeroReadsAsInteger()
    ensures IntegerValue("1.0") == Some(1)
  {
    assert Trim("1.0") == "1.0";
    assert DigitRun("1.0") == 1 by { assert "1.0"[1..] == ".0"; }
    assert ParseUnsigned("1.0") == ParseFraction("1", ".0") by {
      assert "1.0"[..1] == "1" && "1.0"[1..] == ".0";
    }
    assert DigitRun("0") == 1 by { assert "0"[1..] == ""; }
    assert ParseFraction("1", ".0") == Finish("1", "0", "") by {
      assert ".0"[1..] == "0" && "0"[..1] == "0" && "0"[1..] == "";
    }
    assert Text.ParseDigits("1" + "0") == 10 by {
      assert "1" + "0" == "10" && "10"[..1] == "1" && "1"[..0] == "";
    }
    assert ParseNumeric("1.0") == Some(Numeric(10, -1));
    assert Text.Pow10(1) == 10;
  }

  lemma ExponentReadsAsInteger()
    ensures IntegerValue("1e0") == Some(1)
  {
    assert Trim("1e0") == "1e0";
    assert DigitRun("1e0") == 1 by { assert "1e0"[1..] == "e0"; }
    assert ParseUnsigned("1e0") == ParseFraction("1", "e0") by {
      assert "1e0"[..1] == "1" && "1e0"[1..] == "e0";
    }
    assert ParseExponent("e0") == Some(0) by {
      assert "e0"[1..] == "0" && "0"[0..] == "0" && "0"[..0] == "";
    }
    assert Text.ParseDigits("1" + "") == 1 by {
      assert "1" + "" == "1" && "1"[..0] == "";
    }
    assert ParseNumeric("1e0") == Some(Numeric(1, 0));
  }

  lemma SignAndSpaceReadAsInteger()
    ensures IntegerValue(" +1 ") == Some(1)
  {
    assert Trim(" +1 ") == "+1" by {
      assert " +1 "[1..] == "+1 " && "+1 "[..2] == "+1";
    }
    assert DigitRun("1") == 1 by { assert "1"[1..] == ""; }
    assert ParseUnsigned("1") == ParseFraction("1", "") by {
      assert "1"[..1] == "1" && "1"[1..] == "";
    }
    assert Text.ParseDigits("1" + "") == 1 by {
      assert "1" + "" == "1" && "1"[..0] == "";
    }
    assert ParseUnsigned("1") == Some(Numeric(1, 0));
    assert ParseNumeric(" +1 ") == ParseUnsigned("1") by { assert "+1"[1..] == "1"; }
  }

  /** A fractional part that is not zero matches no integer key. */
  lemma FractionReadsAsNoInteger()
    ensures IntegerValue("1.5") == None
  {
    assert Trim("1.5") == "1.5";
    assert DigitRun("1.5") == 1 by { assert "1.5"[1..] == ".5"; }
    assert ParseUnsigned("1.5") == ParseFraction("1", ".5") by {
      assert "1.5"[..1] == "1" && "1.5"[1..] == ".5";
    }
    assert DigitRun("5") == 1 by { assert "5"[1..] == ""; }
    assert ParseFraction("1", ".5") == Finish("1", "5", "") by {
      assert ".5"[1..] == "5" && "5"[..1] == "5" && "5"[1..] == "";
    }
    assert Text.ParseDigits("1" + "5") == 15 by {
      assert "1" + "5" == "15" && "15"[..1] == "1" && "1"[..0] == "";
    }
    assert ParseNumeric("1.5") == Some(Numeric(15, -1));
    assert Text.Pow10(1) == 10;
  }
}

=== FILE: text.dfy ===
/** String operations with Python's meaning: substring tests, suffix
    tests, `str.isspace`, ASCII case mapping, and `str(n)` for a natural
    number. */
module Text {

  /** `k` occurs in `s` starting at position `i`. */
  predicate OccursAt(s: string, k: string, i: int) {
    0 <= i <= |s| - |k| && s[i..i + |k|] == k
  }

  /** Python's `k in s` for two strings. */
  predicate Contains(s: string, k: string) {
    exists i | 0 <= i <= |s| :: OccursAt(s, k, i)
  }

  /** Python's `s.endswith(suffix)`. */
  predicate EndsWith(s: string, suffix: string) {
    |suffix| <= |s| && s[|s| - |suffix|..] == suffix
  }

  /** Python's `str.isspace` for one character. */
  predicate IsSpace(c: char) {
    || c == ' ' || '\t' <= c <= '\r' || '\U{1C}' <= c <= '\U{1F}'
    || c == '\U{85}' || c == '\U{A0}' || c == '\U{1680}'
    || '\U{2000}' <= c <= '\U{200A}' || c == '\U{2028}' || c == '\U{2029}'
    || c == '\U{202F}' || c == '\U{205F}' || c == '\U{3000}'
  }

  /** True when `s.strip()` is empty. */
  predicate IsBlank(s: string) {
    forall i :: 0 <= i < |s| ==> IsSpace(s[i])
  }

  function LowerChar(c: char): char {
    if 'A' <= c <= 'Z' then (c as int + 32) as char else c
  }

  function UpperChar(c: char): char {
    if 'a' <= c <= 'z' then (c as int - 32) as char else c
  }

  /** `s.lower()`, restricted to the ASCII letters. */
  function Lower(s: string): (r: string)
    ensures |r| == |s|
    ensures forall i :: 0 <= i < |s| ==> r[i] == LowerChar(s[i])
  {
    seq(|s|, i requires 0 <= i < |s| => LowerChar(s[i]))
  }

  /** `s.upper()`, restricted to the ASCII letters. */
  function Upper(s: string): (r: string)
    ensures |r| == |s|
    ensures forall i :: 0 <= i < |s| ==> r[i] == UpperChar(s[i])
  {
    seq(|s|, i requires 0 <= i < |s| => UpperChar(s[i]))
  }

  /** Lower-casing forgets any earlier upper-casing. */
  lemma LowerOfUpper(s: string)
    ensures Lower(Upper(s)) == Lower(s)
  {
    forall i | 0 <= i < |s|
      ensures Lower(Upper(s))[i] == Lower(s)[i]
    {
      var c := s[i];
      if 'a' <= c <= 'z' {
        assert UpperChar(c) as int == c as int - 32;
      }
    }
  }

  predicate IsDigit(c: char) {
    '0' <= c <= '9'
  }

  predicate IsDigits(s: string) {
    forall i :: 0 <= i < |s| ==> IsDigit(s[i])
  }

  function DigitChar(d: nat): (c: char)
    requires d < 10
    ensures IsDigit(c)
    ensures c as int - '0' as int == d
  {
    ('0' as int + d) as char
  }

  function Pow10(k: nat): (p: nat)
    ensures p >= 1
  {
    if k == 0 then 1 else 10 * Pow10(k - 1)
  }

  /** Python's `str(n)` for a natural number: its decimal digits, most
      significant first, without leading zeros. */
  function Digits(n: nat): (s: string)
    ensures |s| >= 1
    ensures IsDigits(s)
    ensures n >= 10 ==> s[0] != '0'
  {
    if n < 10 then [DigitChar(n)] else Digits(n / 10) + [DigitChar(n % 10)]
  }

  /** The value of a string of decimal digits (`int(s)` for such a string). */
  function ParseDigits(s: string): nat
    requires IsDigits(s)
  {
    if |s| == 0 then 0
    else 10 * ParseDigits(s[..|s| - 1]) + (s[|s| - 1] as int - '0' as int)
  }

  /** `str(n)` has exactly `k` characters when `n` has `k` decimal digits. */
  lemma {:induction false} DigitsLength(n: nat, k: nat)
    requires 1 <= k
    requires (if k == 1 then 0 else Pow10(k - 1)) <= n < Pow10(k)
    ensures |Digits(n)| == k
  {
    if k == 1 {
      assert n < 10;
    } else {
      assert n >= 10;
      DigitsLength(n / 10, k - 1);
    }
  }

  /** Reading back `str(n)` gives `n`. */
  lemma {:induction false} ParseDigitsOfDigits(n: nat)
    ensures ParseDigits(Digits(n)) == n
  {
    var s := Digits(n);
    if n < 10 {
      assert s[..|s| - 1] == [];
    } else {
      assert s[..|s| - 1] == Digits(n / 10);
      ParseDigitsOfDigits(n / 10);
    }
  }

  /** Distinct numbers have distinct decimal renderings. */
  lemma DigitsInjective(m: nat, n: nat)
    ensures Digits(m) == Digits(n) <==> m == n
  {
    ParseDigitsOfDigits(m);
    ParseDigitsOfDigits(n);
  }
}

=== FILE: user_views.dfy ===
/** The views of `user.py`. In that module the name `get_user` is bound
    twice: imported from `auth.py`, then rebound by the view defined
    further down, so every call site in the module reaches the view. The
    functions named `...AsWritten` model those calls; the `...Corrected`
    ones call the imported lookup the code evidently means. */
module UserViews {
  import opened Maybe
  import opened Models
  import opened Web
  import Auth
  import Sqlite

  const AuthLinkPrefix: string := "-random-insults/"

  /** The link `generate_auth_link` computes and returns. */
  function AuthLink(username: string): (link: string)
    ensures |link| == |AuthLinkPrefix| + |username|
    ensures link[..|AuthLinkPrefix|] == AuthLinkPrefix && link[|AuthLinkPrefix|..] == username
    ensures '/' in link
  {
    assert (AuthLinkPrefix + username)[15] == '/';
    AuthLinkPrefix + username
  }

  /** The text compares equal to the id of some row: SQLite reads it as
      an integral number under the key column's numeric affinity. */
  predicate ReadsAsRowId(db: Db, text: string) {
    Sqlite.IntegerValue(text).Some? && FindById(db.users, Sqlite.IntegerValue(text).value).Some?
  }

  /** `get_user(username)` inside `user.py`: the view. Behind flask-login's
      `login_required` it answers an anonymous caller with the redirect to
      the login page, a non-admin caller with a redirect to the index, and
      for an admin caller runs `get_or_404(username)`. The result is a
      response object, a dumped dict, or an abort. */
  datatype ShadowedLookup = ResponseObject | DictObject | Abort404

  function ShadowedGetUser(db: Db, s: Session, username: string): (r: ShadowedLookup)
    ensures r != ResponseObject <==> LoggedIn(db, s) && db.users[CurrentUser(db, s).value].isAdmin
    ensures r == DictObject <==>
              LoggedIn(db, s) && db.users[CurrentUser(db, s).value].isAdmin && ReadsAsRowId(db, username)
  {
    if !LoggedIn(db, s) || !db.users[CurrentUser(db, s).value].isAdmin then ResponseObject
    else if ReadsAsRowId(db, username) then DictObject
    else Abort404
  }

  /** An admin asking for the text "1.0" gets the dump of row 1: the key
      comparison reads the text as a number, not as a name. */
  lemma PointZeroNamesFirstRow(db: Db, s: Session)
    requires Valid(db) && |db.users| > 0
    requires LoggedIn(db, s) && db.users[CurrentUser(db, s).value].isAdmin
    ensures ShadowedGetUser(db, s, "1.0") == DictObject
  {
    Sqlite.PointZeroReadsAsInteger();
    assert db.users[0].id == 1;
  }

  /** `generate_auth_link` as written: the route is assigned to whatever
      the shadowed lookup returned, never to a `User` row. A response
      object takes the attribute silently, a dict refuses it, an abort
      propagates. */
  function GenerateAuthLinkAsWritten(db: Db, s: Session, username: string): (r: Result<(Db, string)>)
    ensures r.Ok? ==> r.value == (db, AuthLink(username))
    ensures r.Raised? <==> LoggedIn(db, s) && db.users[CurrentUser(db, s).value].isAdmin
  {
    match ShadowedGetUser(db, s, username)
    case ResponseObject => Ok((db, AuthLink(username)))
    case DictObject => Raised(AttributeError)
    case Abort404 => Raised(NotFoundAbort)
  }

  /** `generate_auth_link` on the user's row: store the link as its
      `auth_link_route`, leaving every other column and row alone. */
  function GenerateAuthLinkCorrected(db: Db, username: string): (r: Result<(Db, string)>)
    ensures Auth.GetUser(db, username).None? ==> r == Raised(AttributeError)
    ensures Auth.GetUser(db, username).Some? ==>
              var i := Auth.GetUser(db, username).value;
              r == Ok((UpdateUser(db, i, db.users[i].(authLinkRoute := Some(AuthLink(username)))), AuthLink(username)))
  {
    match Auth.GetUser(db, username)
    case None => Raised(AttributeError)
    case Some(i) =>
      var link := AuthLink(username);
      Ok((UpdateUser(db, i, db.users[i].(authLinkRoute := Some(link))), link))
  }

  /** The row the JWT identity names, once `@jwt_required` has passed. */
  function JwtUser(db: Db, s: Session): (r: Option<nat>)
    requires s.bearer.Some?
    ensures r.Some? ==> r.value < |db.users| && db.users[r.value].username == s.bearer.value.identity
    ensures (exists j :: 0 <= j < |db.users| && db.users[j].username == s.bearer.value.identity) ==> r.Some?
  {
    Auth.GetUser(db, s.bearer.value.identity)
  }

  /** `index` (GET /user/<username>) as written. The verified-admin branch
      reads `app.config`, and `app` is not a name in `user.py`; the link
      regeneration goes through the shadowed lookup, so the database is
      never written. */
  function Index(db: Db, s: Session, username: string, now: int): (st: Step)
    ensures st.db == db && st.session == s
    ensures !JwtValid(s, now) ==> st.outcome == Unauthorized
    ensures JwtValid(s, now) && JwtUser(db, s).None? ==> st.outcome == Redirect(LoginView)
    ensures JwtValid(s, now) && JwtUser(db, s).Some? && s.bearer.value.identity != username ==>
              st.outcome == Redirect(RegisterView)
    ensures JwtValid(s, now) && JwtUser(db, s).Some? && s.bearer.value.identity == username ==>
              var u := db.users[JwtUser(db, s).value];
              if u.isAdmin && u.isVerified then st.outcome == ServerError(NameError)
              else if !u.isActive then st.outcome == Redirect(LoginSite)
              else if u.isVerified || GenerateAuthLinkAsWritten(db, s, username).Ok? then
                st.outcome == Redirect(MainSite)
              else st.outcome == Failure(GenerateAuthLinkAsWritten(db, s, username).error)
  {
    if !JwtValid(s, now) then Step(db, s, Unauthorized)
    else match JwtUser(db, s)
      case None => Step(db, s, Redirect(LoginView))
      case Some(i) =>
        var u := db.users[i];
        if u.username != username then Step(db, s, Redirect(RegisterView))
        else if u.isAdmin && u.isVerified then Step(db, s, ServerError(NameError))   // `app.config`
        else if u.isActive then
          if !u.isVerified then
            match GenerateAuthLinkAsWritten(db, s, username)
            case Raised(e) => Step(db, s, Failure(e))
            case Ok(_) => Step(db, s, Redirect(MainSite))
          else Step(db, s, Redirect(MainSite))
        else Step(db, s, Redirect(LoginSite))
  }

  /** `index` with both defects repaired: a verified admin goes to the
      admin site, and an active unverified account gets its link route
      written to its own row. */
  function IndexCorrected(db: Db, s: Session, username: string, now: int): (st: Step)
    ensures st.session == s
    ensures st.db != db ==>
              && JwtValid(s, now) && JwtUser(db, s).Some? && s.bearer.value.identity == username
              && var i := JwtUser(db, s).value;
                 && db.users[i].isActive && !db.users[i].isVerified
                 && st.db == UpdateUser(db, i, db.users[i].(authLinkRoute := Some(AuthLink(username))))
    ensures JwtValid(s, now) && JwtUser(db, s).Some? && s.bearer.value.identity == username ==>
              var u := db.users[JwtUser(db, s).value];
              && (u.isAdmin && u.isVerified ==> st.db == db && st.outcome == Redirect(AdminSite))
              && (!(u.isAdmin && u.isVerified) && u.isActive ==> st.outcome == Redirect(MainSite))
              && (!(u.isAdmin && u.isVerified) && u.isActive && !u.isVerified ==>
                    st.db.users[JwtUser(db, s).value].authLinkRoute == Some(AuthLink(username)))
              && (!u.isActive && !(u.isAdmin && u.isVerified) ==> st.outcome == Redirect(LoginSite))
  {
    if !JwtValid(s, now) then Step(db, s, Unauthorized)
    else match JwtUser(db, s)
      case None => Step(db, s, Redirect(LoginView))
      case Some(i) =>
        var u := db.users[i];
        if u.username != username then Step(db, s, Redirect(RegisterView))
        else if u.isAdmin && u.isVerified then Step(db, s, Redirect(AdminSite))
        else if u.isActive then
          if !u.isVerified then
            Step(UpdateUser(db, i, u.(authLinkRoute := Some(AuthLink(username)))), s, Redirect(MainSite))
          else Step(db, s, Redirect(MainSite))
        else Step(db, s, Redirect(LoginSite))
  }

  /** `get_users` (GET /user/<username>/get/users) as written: the shadowed
      lookup returns a response, a dict or an abort, and reading
      `.is_admin` off the first two raises, so no caller gets the list. */
  function GetUsers(db: Db, s: Session, username: string): (st: Step)
    ensures st.db == db && st.session == s
    ensures !st.outcome.AllUsers?
    ensures !LoggedIn(db, s) ==> st.outcome == Redirect(LoginView)
    ensures LoggedIn(db, s) ==> st.outcome == NotFound || st.outcome == ServerError(AttributeError)
  {
    if !LoggedIn(db, s) then Step(db, s, Redirect(LoginView))
    else match ShadowedGetUser(db, s, username)
      case Abort404 => Step(db, s, NotFound)
      case _ => Step(db, s, ServerError(AttributeError))   // `.is_admin` on a response or dict
  }

  /** Every row of the table, dumped, in table order. */
  function DumpAll(db: Db): (ds: seq<UserDump>)
    ensures |ds| == |db.users|
    ensures forall i :: 0 <= i < |ds| ==> ds[i] == DumpUser(db, db.users[i])
  {
    seq(|db.users|, i requires 0 <= i < |db.users| => DumpUser(db, db.users[i]))
  }

  /** `get_users` with only the shadowing repaired: the imported lookup
      reads the row named in the path, so the list goes to anyone logged
      in who names an admin in the path, and the index page otherwise. */
  function GetUsersCorrected(db: Db, s: Session, username: string): (st: Step)
    ensures st.db == db && st.session == s
    ensures st.outcome.AllUsers? <==>
              LoggedIn(db, s) && Auth.GetUser(db, username).Some? && db.users[Auth.GetUser(db, username).value].isAdmin
    ensures st.outcome.AllUsers? ==> st.outcome.dumps == DumpAll(db)
  {
    if !LoggedIn(db, s) then Step(db, s, Redirect(LoginView))
    else match Auth.GetUser(db, username)
      case None => Step(db, s, ServerError(AttributeError))   // `False.is_admin`
      case Some(i) =>
        if !db.users[i].isAdmin then Step(db, s, Redirect(IndexView(username)))
        else Step(db, s, AllUsers(DumpAll(db)))
  }

  /** The path gate lets a caller who is not an admin read the list: any
      logged-in caller naming an admin's row in the path gets every dump. */
  lemma NonAdminListsThroughAdminPath(db: Db, s: Session, admin: string)
    requires LoggedIn(db, s) && !db.users[CurrentUser(db, s).value].isAdmin
    requires Auth.GetUser(db, admin).Some? && db.users[Auth.GetUser(db, admin).value].isAdmin
    ensures GetUsersCorrected(db, s, admin).outcome == AllUsers(DumpAll(db))
  {
  }

  /** `get_users` gated on the caller, as the admin-only listing is meant:
      the list of all rows exactly when the logged-in caller is an admin,
      the index page of the named user for anyone else logged in. */
  function GetUsersAdminOnly(db: Db, s: Session, username: string): (st: Step)
    ensures st.db == db && st.session == s
    ensures !LoggedIn(db, s) ==> st.outcome == Redirect(LoginView)
    ensures st.outcome.AllUsers? <==> LoggedIn(db, s) && db.users[CurrentUser(db, s).value].isAdmin
    ensures st.outcome.AllUsers? ==> st.outcome.dumps == DumpAll(db)
    ensures LoggedIn(db, s) && !db.users[CurrentUser(db, s).value].isAdmin ==>
              st.outcome == Redirect(IndexView(username))
  {
    match CurrentUser(db, s)
    case None => Step(db, s, Redirect(LoginView))
    case Some(c) =>
      if !db.users[c].isAdmin then Step(db, s, Redirect(IndexView(username)))
      else Step(db, s, AllUsers(DumpAll(db)))
  }

  /** When callers name themselves in the path, gating on the caller and
      gating on the path row answer alike. */
  lemma AdminOnlyAgreesOnOwnPath(db: Db, s: Session)
    requires Valid(db) && LoggedIn(db, s)
    ensures var name := db.users[CurrentUser(db, s).value].username;
            GetUsersAdminOnly(db, s, name) == GetUsersCorrected(db, s, name)
  {
    var c := CurrentUser(db, s).value;
    assert Auth.GetUser(db, db.users[c].username) == Some(c);
  }

  /** The view `get_user` (GET /user/get/<int:user_id>): the dump of row
      `userId` for an admin caller, a redirect to the caller's index page
      for anyone else logged in. */
  function GetUserById(db: Db, s: Session, userId: nat): (st: Step)
    ensures st.db == db && st.session == s
    ensures !LoggedIn(db, s) ==> st.outcome == Redirect(LoginView)
    ensures st.outcome.OneUser? <==>
              LoggedIn(db, s) && db.users[CurrentUser(db, s).value].isAdmin && FindById(db.users, userId).Some?
    ensures st.outcome.OneUser? ==> st.outcome.dump == DumpUser(db, db.users[FindById(db.users, userId).value])
    ensures LoggedIn(db, s) && !db.users[CurrentUser(db, s).value].isAdmin ==>
              st.outcome == Redirect(IndexView(db.users[CurrentUser(db, s).value].username))
  {
    match CurrentUser(db, s)
    case None => Step(db, s, Redirect(LoginView))
    case Some(c) =>
      if !db.users[c].isAdmin then Step(db, s, Redirect(IndexView(db.users[c].username)))
      else match FindById(db.users, userId)
        case None => Step(db, s, NotFound)
        case Some(k) => Step(db, s, OneUser(DumpUser(db, db.users[k])))
  }
}

=== FILE: web.dfy ===
/** The request/response frame the Flask handlers run in: the caller's
    session and cookies, the JWT check, the flask-login user, the mail
    collaborator, and the responses a handler can produce. */
module Web {
  import opened Maybe
  import Models

  /** The identity claim and issue time of the JWT access cookie. */
  datatype Bearer = Bearer(identity: string, issuedAt: int)

  /** One browser's state: the Flask session keys the handlers use, the
      flask-login user id, and the JWT access cookie. */
  datatype Session = Session(
    attempts: Option<int>,       // session['shortcode_attempts']
    shortcodeFlag: Option<int>,  // session['shortcode']
    loginId: Option<nat>,        // the user id flask-login keeps
    bearer: Option<Bearer>)      // the access-token cookie

  /** A browser that has never talked to the application. */
  const FreshSession := Session(None, None, None, None)

  /** `JWT_ACCESS_TOKEN_EXPIRES`: one hour. */
  const AccessTokenLifetime: int := 3600

  /** What `@jwt_required()` lets through: an access cookie that has not
      expired (the token is rejected once its `exp` is reached). */
  predicate JwtValid(s: Session, now: int) {
    s.bearer.Some? && now < s.bearer.value.issuedAt + AccessTokenLifetime
  }

  /** The row `current_user` stands for: flask-login's `load_user` fetches
      the stored id; no id, or no such row, leaves an anonymous user. */
  function CurrentUser(db: Models.Db, s: Session): (r: Option<nat>)
    ensures r.Some? ==> s.loginId.Some? && r.value < |db.users| && db.users[r.value].id == s.loginId.value
    ensures s.loginId.None? ==> r.None?
    ensures s.loginId.Some? && (exists j :: 0 <= j < |db.users| && db.users[j].id == s.loginId.value) ==> r.Some?
  {
    match s.loginId
    case None => None
    case Some(id) => Models.FindById(db.users, id)
  }

  /** `current_user.is_authenticated`. */
  predicate LoggedIn(db: Models.Db, s: Session) {
    CurrentUser(db, s).Some?
  }

  /** The outcome of `mail.send(msg)`. */
  datatype Mail = Delivered | RaisedTypeError | RaisedOther

  /** Where a redirect points. */
  datatype Target =
    | LoginView
    | RegisterView
    | VerifyView(username: string)
    | OnboardView(username: string)
    | SendCodeView(username: string)
    | AuthorizeView(username: string)
    | IndexView(username: string)
    | NextPage(url: string)
    | AdminSite   // https://login.savantlab.org/Savantlab
    | MainSite    // https://savantlab.org
    | LoginSite   // https://login.savantlab.org

  /** A template rendered in place. */
  datatype Page = LoginPage | RegisterPage | VerifyPage(username: string)

  /** The response a handler produces. */
  datatype Outcome =
    | Redirect(to: Target)
    | Render(page: Page)
    | UrlBody(url: Target)                   // 200 whose body is a URL
    | OneUser(dump: Models.UserDump)
    | AllUsers(dumps: seq<Models.UserDump>)
    | Unauthorized                           // 401 from @jwt_required
    | BadRequest                             // 400: a missing form key
    | NotFound                               // 404
    | ServerError(cause: PyError)            // 500: an uncaught exception

  /** The response for an exception that escapes a handler. */
  function Failure(e: PyError): (o: Outcome)
    ensures e == NotFoundAbort <==> o == NotFound
    ensures e != NotFoundAbort ==> o == ServerError(e)
  {
    if e == NotFoundAbort then NotFound else ServerError(e)
  }

  /** The state after one request, and its response. */
  datatype Step = Step(db: Models.Db, session: Session, outcome: Outcome)

  /** What the URL router hands a `<name>` path variable: a non-empty
      segment without `/`. */
  predicate PathSegment(s: string) {
    |s| > 0 && '/' !in s
  }
}

=== FILE: worker_simple.dfy ===
/** The request routing of the Workers entry point `src/worker_simple.py`:
    the health probe, the chat endpoint with its guard clauses, and the
    HTML page for everything else. The AI binding is a collaborator whose
    answer is an input. */
module WorkerSimple {
  import opened Maybe
  import Text

  /** A JSON value as `request.json()` yields it. Numbers are integers
      here. */
  datatype Json =
    | JNull
    | JBool(b: bool)
    | JNum(n: int)
    | JStr(s: string)
    | JArray(items: seq<Json>)
    | JObject(fields: map<string, Json>)

  /** Python truthiness of a decoded JSON value. */
  predicate Truthy(v: Json) {
    match v
    case JNull => false
    case JBool(b) => b
    case JNum(n) => n != 0
    case JStr(s) => |s| > 0
    case JArray(items) => |items| > 0
    case JObject(fields) => |fields| > 0
  }

  /** The request body: not JSON at all (the parse raises with some
      message), or a decoded value. */
  datatype Body = Unparsable(detail: string) | Parsed(value: Json)

  /** What `ai.run(...)` does: answer with a result object, or raise. */
  datatype AiAnswer = Answer(result: map<string, Json>) | AiRaises(detail: string)

  /** The `AI` attribute of the environment: missing altogether, present
      but falsy, or a binding that would answer this request's call with
      `answer`. */
  datatype Binding = Absent | Falsy | Bound(answer: AiAnswer)

  /** The model the worker always asks. */
  const ChatModel: string := "@cf/meta/llama-3-8b-instruct"

  /** The JSON responses the worker produces. */
  datatype Reply =
    | HealthReply(status: string, service: string)
    | ChatReply(response: Json, modelUsed: string)
    | ErrorReply(httpStatus: int, error: string)
    | HtmlPage

  /** The exception text `str(e)` for an exception raised inside the
      handler, when it is not one of the parse or call failures. */
  datatype Fault = NotAnObject | NoAiAttribute | NoResponseKey

  /** `handle_chat`: every failure inside the `try` becomes a 500 whose
      error text starts with "Chat error: ". `faultText` is `str(e)` for
      the internal faults, which the model does not spell out. */
  function HandleChat(body: Body, ai: Binding, faultText: Fault -> string): (r: Reply)
    ensures r.ChatReply? || r.ErrorReply?
    ensures (body.Parsed? && body.value.JObject?
             && !("message" in body.value.fields && Truthy(body.value.fields["message"])))
            ==> r == ErrorReply(400, "Message required")
    ensures r.ErrorReply? && r.httpStatus == 400 ==> r.error == "Message required"
    ensures r.ChatReply? ==>
              && r.modelUsed == ChatModel
              && body.Parsed? && body.value.JObject? && "message" in body.value.fields
              && Truthy(body.value.fields["message"])
              && ai.Bound? && ai.answer.Answer? && "response" in ai.answer.result
              && r.response == ai.answer.result["response"]
    ensures r.ErrorReply? && r.httpStatus != 400 ==> r.httpStatus == 500
    ensures body.Parsed? && body.value.JObject? && "message" in body.value.fields
            && Truthy(body.value.fields["message"])
            && ai.Bound? && ai.answer.Answer? && "response" in ai.answer.result ==>
              r == ChatReply(ai.answer.result["response"], ChatModel)
  {
    match body
    case Unparsable(detail) => ErrorReply(500, "Chat error: " + detail)
    case Parsed(v) =>
      if !v.JObject? then ErrorReply(500, "Chat error: " + faultText(NotAnObject))   // `.get` on a non-dict
      else
        var message := if "message" in v.fields then v.fields["message"] else JStr("");
        if !Truthy(message) then ErrorReply(400, "Message required")
        else match ai
          case Absent => ErrorReply(500, "Chat error: " + faultText(NoAiAttribute))   // `env.AI` raises
          case Falsy => ErrorReply(500, "AI binding not available")
          case Bound(AiRaises(detail)) => ErrorReply(500, "Chat error: " + detail)
          case Bound(Answer(result)) =>
            if "response" !in result then ErrorReply(500, "Chat error: " + faultText(NoResponseKey))
            else ChatReply(result["response"], ChatModel)
  }

  /** The empty-message guard runs before the binding is consulted: for
      such a body the reply does not depend on the binding at all. */
  lemma EmptyMessageIgnoresBinding(body: Body, ai1: Binding, ai2: Binding, f: Fault -> string)
    requires body.Parsed? && body.value.JObject?
    requires "message" !in body.value.fields || !Truthy(body.value.fields["message"])
    ensures HandleChat(body, ai1, f) == HandleChat(body, ai2, f) == ErrorReply(400, "Message required")
  {
  }

  /** With a usable message, a falsy binding gets a 500 with the worker's
      own text, while a missing one raises inside the `try` and gets a
      "Chat error"; only a binding that answers can produce a reply. */
  lemma MissingBindingIs500(fields: map<string, Json>, f: Fault -> string, ai: Binding)
    requires "message" in fields && Truthy(fields["message"])
    ensures HandleChat(Parsed(JObject(fields)), Falsy, f) == ErrorReply(500, "AI binding not available")
    ensures HandleChat(Parsed(JObject(fields)), Absent, f) == ErrorReply(500, "Chat error: " + f(NoAiAttribute))
    ensures HandleChat(Parsed(JObject(fields)), ai, f).ChatReply? ==> ai.Bound?
  {
  }

  /** `on_fetch`: the health probe wins for any URL ending in "/health",
      whatever the method; only a POST whose URL contains "/chat" reaches
      the chat handler; everything else gets the page. */
  function OnFetch(url: string, httpMethod: string, body: Body, ai: Binding, faultText: Fault -> string): (r: Reply)
    ensures Text.EndsWith(url, "/health") <==> r == HealthReply("healthy", "mad-scientist-ai-chat")
    ensures r.ChatReply? || r.ErrorReply? <==>
              !Text.EndsWith(url, "/health") && httpMethod == "POST" && Text.Contains(url, "/chat")
    ensures r.ChatReply? || r.ErrorReply? ==> r == HandleChat(body, ai, faultText)
    ensures r == HtmlPage <==>
              !Text.EndsWith(url, "/health") && !(httpMethod == "POST" && Text.Contains(url, "/chat"))
  {
    if Text.EndsWith(url, "/health") then HealthReply("healthy", "mad-scientist-ai-chat")
    else if httpMethod == "POST" && Text.Contains(url, "/chat") then HandleChat(body, ai, faultText)
    else HtmlPage
  }

  /** A POST to ".../chat/health" is a health probe, not a chat. */
  lemma HealthBeforeChat(body: Body, ai: Binding, f: Fault -> string)
    ensures OnFetch("https://w.dev/chat/health", "POST", body, ai, f).HealthReply?
  {
    var url := "https://w.dev/chat/health";
    assert url[|url| - 7..] == "/health";
  }

  /** The chat test is a substring test: a GET to "/chat" and a POST to
      "/chatter" are routed differently from what their paths suggest. */
  lemma ChatRouteBySubstring(body: Body, ai: Binding, f: Fault -> string)
    ensures OnFetch("https://w.dev/chat", "GET", body, ai, f) == HtmlPage
    ensures var r := OnFetch("https://w.dev/chatter", "POST", body, ai, f); r.ChatReply? || r.ErrorReply?
  {
    var u1, u2 := "https://w.dev/chat", "https://w.dev/chatter";
    assert u1[|u1| - 7..] != "/health" by { assert u1[|u1| - 7..][0] != '/'; }
    assert u2[|u2| - 7..] != "/health" by { assert u2[|u2| - 7..][0] != '/'; }
    assert Text.OccursAt(u2, "/chat", 13) by { assert u2[13..18] == "/chat"; }
  }
}
